=== FILE: README.md ===
# XIQ SSID to CCG — a Dafny model

This project models the core of a script that does two things against an
ExtremeCloud IQ account. First, it collects every access point's radios and
wireless LANs into two views:
- a flat list of `(device name, radio, SSID, BSSID)` records, written as a CSV file;
- an insertion-ordered map from SSID to the ids of the devices broadcasting it.

Second, it reconciles that map with the account's cloud config groups (CCGs).
Each SSID gets a group of the same name. The group is created when there is
none. It is overwritten when its members differ. It is left alone when they
agree. The first failing call ends the run.

Modules, one per file:

- `prelude.dfy` (`Prelude`) — `Option`, duplicate-freedom, `Dedup`
  (first occurrences in order) and `IndexOf` (first index).
- `http.dfy` (`Http`) — what one API call yields: the response validation
  rule and the single failure kind with its reasons.
- `devices.dfy` (`Devices`) — one device page: the AP filter, the
  id-to-hostname mapping and the id list handed to the radio query.
- `aggregation.dfy` (`Aggregation`) — the three nested loops over one
  radio-information page and the SSID map they build. It contains both
  functional definitions and the loops written as methods.
- `collection.dfy` (`Collection`) — the two pagination loops, over server
  functions and a fuel bound.
- `groups.dfy` (`Groups`) — groups and the set-equality membership check.
- `reconcile.dfy` (`Reconcile`) — the per-SSID decision, the planned calls,
  the fail-fast loop, and the create/update calls with their failure handling.
- `csv.dfy` (`Csv`) — the CSV text and a splitting parser as its partner.
- `prompt.dfy` (`Prompt`) — the yes/no/quit question loop.
- `account.dfy` (`Account`) — bearer-token headers and the external account switch.

Servers are functions from a request to a transport outcome. That outcome is
either "the transport raised `HTTPError`" or a raw response. A raw response is
either absent or a status with a body, and the body is `None` when it is not
valid JSON. The pagination loops take a `fuel: nat` bound on the number of
pages. A loop that has not ended within it reports `OutOfFuel`.

Three details of the code shape the model:

- The device loop re-reads `total_pages` from every device page
  (app/xiq_api.py:206), so a count that changes between pages moves the
  bound. `Collection.DeviceBoundIsReread` shows a server whose count
  grows being read to the end.
- In `collectCCG` the flag `firstCall` is never cleared
  (app/xiq_api.py:249-261), so the bound is re-read from every group page
  as well.
- The description of a created group is `"CCG for SSID <name>"`
  (XIQ_SSID_CCGs.py:146).

## Model

| member | source | states |
|---|---|---|
| Http.CheckResponse | app/xiq_api.py:95-118 | A response passes only when it is present, its status is 200 or 201 and its body parses, and then yields the parsed body. A missing response, a rejected status (reported with its code, whatever the body, a body parsing to a JSON scalar aside; the source parses that body only to log it) and an unparsable body each fail with their own reason. |
| Http.ApiCall | app/xiq_api.py:53-84 | On the raw exchange: a call yields the body exactly when a response came back with status 200 or 201 and a body that parses. A failure is reported as an `HTTPError` exactly when the transport raised one, and a plain call never reports a missing access token. |
| Http.RejectedStatusIgnoresBody | app/xiq_api.py:100-112 | With a rejected status the outcome is a failure with the same reason whatever the body; the body is parsed for the log message only. |
| Devices.FilterAps | app/xiq_api.py:160-162 | The AP filter; characterised by `Devices.FilterApsMembers` (exactly the APs) and `Devices.FilterApsAppend` (page order kept). |
| Devices.FilterApsMembers | app/xiq_api.py:160-162 | The AP filter keeps exactly the devices whose `device_function` is "AP": nothing else is added, no AP is dropped. |
| Devices.FilterApsAppend | app/xiq_api.py:160-162 | Filtering a concatenation filters each part and concatenates, so the original order is kept. |
| Devices.FilterApsKeepsAps | app/xiq_api.py:160-162 | A list of APs passes the filter unchanged. |
| Devices.FilterApsIdempotent | app/xiq_api.py:160-162 | Filtering twice is filtering once. |
| Devices.FilterApsDropsNonAps | app/xiq_api.py:160-162 | A page without APs is filtered to nothing. |
| Devices.CollectDevicesBatch | app/xiq_api.py:150-163 | One device page fails exactly when its call fails, with that call's reason. Otherwise it yields the page's `total_pages` and the page's APs in page order, repeats included: the filtered page itself, which holds exactly the devices whose `device_function` is "AP". |
| Devices.HostNames | app/xiq_api.py:210 | The id-to-hostname dict comprehension; characterised by `Devices.HostNamesKeys` and `Devices.HostNamesLastWins`. |
| Devices.HostNamesKeys | app/xiq_api.py:210 | The id-to-hostname mapping has an entry for exactly the ids on the page. |
| Devices.HostNamesLastWins | app/xiq_api.py:210 | For an id listed more than once, the hostname of its last entry is the one kept. |
| Devices.ApIds | app/xiq_api.py:212 | The ids handed to the radio query are every AP id of the page, each once. |
| Devices.ApIdsInOrder | app/xiq_api.py:210-212 | The dict keeps insertion order: on a page whose ids are all different, the ids handed on are the page's ids in page order. |
| Collection.RadioRequestFor | app/xiq_api.py:212-214 | The radio query for a device page carries that page's number unchanged, the page size 50, and every id of the page's APs exactly once, in order of first occurrence. |
| Aggregation.PageObservations | app/xiq_api.py:218-233 | The records of one radio-information page, with the device id each is filed under; characterised by `Aggregation.PageRecordOrigin` and `Aggregation.PageObservationCount`. |
| Aggregation.PageObservationCount | app/xiq_api.py:218-233 | A page yields exactly one record per (device, radio, wlan) triple; a radio without `wlans` contributes none. |
| Aggregation.PageRecordOrigin | app/xiq_api.py:218-233 | A record comes from a page if and only if some wlan of some radio of some device on it produced it. Its name is the device's hostname from the page's mapping, or "Unknown" for an id not in it. Its BSSID is "Simulated" in simulated mode, otherwise the wlan's `bssid`, or "Unknown" when it has none. |
| Aggregation.PageRecordSound | app/xiq_api.py:218-233 | Every record of a page comes from one of its triples, built by the name and BSSID rules. |
| Aggregation.PageRecordComplete | app/xiq_api.py:218-233 | Every triple of a page yields its record. |
| Aggregation.RadioObservationOrigin | app/xiq_api.py:221-233 | The records of one device are exactly those of its radios' wlans. |
| Aggregation.PageObservationOrigin | app/xiq_api.py:218-220 | The records of a page are exactly those of its devices. |
| Aggregation.Observe | app/xiq_api.py:235-238 | One update of the SSID map; characterised by `Aggregation.ObserveSpec` and, over a whole run, `Aggregation.SsidMapReference`. |
| Aggregation.ObserveSpec | app/xiq_api.py:235-238 | One map update appends a new SSID at the end of the key order with a one-element list, and appends the id to a known SSID's list unless it is already there. No other SSID changes. |
| Aggregation.ObserveAllAppend | app/xiq_api.py:233-238 | Folding updates over two runs of observations in turn is folding over their concatenation. |
| Aggregation.ObserveStep | app/xiq_api.py:235-238 | One update keeps a map in step with the observations it has seen plus one. |
| Aggregation.SsidMapReference | app/xiq_api.py:203-238 | Keys come in first-observation order, and each key lists every device observed broadcasting it exactly once, in first-observation order. |
| Aggregation.SsidMapShape | app/xiq_api.py:233-238 | No SSID is listed twice, and the keys are exactly the SSIDs of the records. Each key's list holds every device that broadcast it and no other, each once, even when several of its radios broadcast that SSID. |
| Aggregation.IdsForObserved | app/xiq_api.py:233-238 | A device is listed under an SSID exactly when some observation filed it there. |
| Aggregation.AbsorbWlans | app/xiq_api.py:223-238 | The innermost loop appends one record per wlan, with the inline BSSID rule, and files each device id under that wlan's SSID. |
| Aggregation.AbsorbRadios | app/xiq_api.py:221-238 | The middle loop appends the records of every radio of a device, in order, and folds them into the map. |
| Aggregation.AbsorbRadioInfo | app/xiq_api.py:218-238 | The outer loop appends every record of the page, in encounter order, and folds each into the SSID map. |
| Collection.FetchPage | app/xiq_api.py:205-238 | One iteration of the device loop: a device page, then the radio query for it; its pagination and contents are characterised by `Collection.DevicePagination` and `Collection.DeviceCollectionViews`. |
| Collection.CollectSsidDeviceList | app/xiq_api.py:199-243 | `collectSSIDDeviceList`; characterised by `Collection.DevicePagination` (pages requested, failure) and `Collection.DeviceCollectionViews` (the two views). |
| Collection.DeviceLoopNumbers | app/xiq_api.py:200-206 | Device pages are requested consecutively with a local increment, at most one per unit of fuel, and at least one when the loop is entered. |
| Collection.DeviceLoopReasons | app/xiq_api.py:204-216 | Every page but the last reported a `total_pages` beyond it. A completed loop stopped because the last page's own count is below the next number. A failure ends the loop on the page that failed. |
| Collection.DeviceLoopAccumulates | app/xiq_api.py:202-243 | A completed loop holds the records and map updates of exactly the pages it requested, in order. |
| Collection.DevicePagination | app/xiq_api.py:199-243 | At least one page is fetched, and pages are requested 1, 2, 3, … with no gap. The loop stops once the page number exceeds the `total_pages` of the most recent page. A failing page ends the collection with its reason and no result. |
| Collection.DeviceCollectionViews | app/xiq_api.py:199-243 | A completed collection returns one record per triple of every page fetched, in encounter order, and the SSID map those observations determine. |
| Collection.DeviceBoundIsReread | app/xiq_api.py:204-206 | A server whose first page reports 2 pages and later pages 3 is read to page 3: the bound is re-read on every page. |
| Collection.CollectCcg | app/xiq_api.py:246-264 | `collectCCG`; characterised by `Collection.CcgPagination` and `Collection.StaleEchoNeverEnds`. |
| Collection.CcgLoopNumbers | app/xiq_api.py:252-263 | Each next group page requested is the page number the server echoed plus one, and the loop goes on while that is within the `total_pages` just read. |
| Collection.CcgLoopEnds | app/xiq_api.py:252-264 | A completed group loop stopped because the echo plus one exceeds the last page's count, and holds the concatenation of every fetched page's groups in order. A failure ends it on the page that failed. |
| Collection.CcgPagination | app/xiq_api.py:246-264 | The first request is page 1. Each next request is the echoed page plus one, and the bound is re-read from every response. The result is the in-order concatenation of every page's `data`, and any page failure fails the whole collection. |
| Collection.StaleEchoNeverEnds | app/xiq_api.py:263 | A server that always echoes page 0 while reporting at least one page is asked for page 1 again and again, and the loop never ends. |
| Collection.StaleEchoFrom | app/xiq_api.py:252-263 | The same from any state that asks for page 1 under a bound of at least 1. |
| Groups.Covers | XIQ_SSID_CCGs.py:64-65 | Every id of one list is in the other. |
| Groups.SameMembers | XIQ_SSID_CCGs.py:64-65 | The check is true exactly when the two id lists are equal as sets. |
| Groups.SameMembersIgnoresArrangement | XIQ_SSID_CCGs.py:64-65 | Reordering or repeating ids never changes the verdict. |
| Groups.SameMembersDetectsDifference | XIQ_SSID_CCGs.py:64-65 | An id in one list and not in the other always makes the check false. |
| Reconcile.FirstMatch | XIQ_SSID_CCGs.py:123-124 | Finds the first group in list order whose name equals the SSID, and finds none exactly when no group has that name. |
| Reconcile.FirstMatchUnique | XIQ_SSID_CCGs.py:123-141 | The first match is unique. |
| Reconcile.Decide | XIQ_SSID_CCGs.py:121-146 | The call one SSID needs; characterised by `Reconcile.DecideSpec`, `Reconcile.DecideIgnoresLaterGroups` and `Reconcile.DecideSettles`. |
| Reconcile.DecideSpec | XIQ_SSID_CCGs.py:121-146 | Exactly one of three outcomes per SSID. With no group of that name, a create with the SSID as name, "CCG for SSID <name>" as description and the full device list. With a first match holding the same ids as a set, nothing. Otherwise an update that keeps the match's id and description and overwrites name and members with the SSID and the full list. |
| Reconcile.DecideIgnoresLaterGroups | XIQ_SSID_CCGs.py:123-141 | Groups after the first match are never examined: adding or dropping them changes nothing. |
| Reconcile.DecideSettles | XIQ_SSID_CCGs.py:127-146 | Once the group a call leaves behind is in place, the same SSID calls for nothing. |
| Reconcile.PlannedCalls | XIQ_SSID_CCGs.py:120-152 | The calls a run makes when none is rejected, in map order; characterised by `Reconcile.PlannedCallNames`, `Reconcile.PlannedCallsDistinct` and `Reconcile.PlannedCallsPrefix`. |
| Reconcile.PlannedCallNames | XIQ_SSID_CCGs.py:120-152 | Every call names an SSID of the map, and an SSID gets a call exactly when its group is missing or differs. |
| Reconcile.PlannedCallsDistinct | XIQ_SSID_CCGs.py:120-152 | No SSID gets two calls. |
| Reconcile.PlannedCallsPrefix | XIQ_SSID_CCGs.py:120 | The calls for a leading part of the map are a prefix of the calls for the whole map, in map order. |
| Reconcile.IssueAsWritten | app/xiq_api.py:266-282 | As written, a failed create or update leaves the call as a TypeError from the exception constructor; characterised by `Reconcile.IssueHalves` and `Reconcile.FailedCallExitStatus`. |
| Reconcile.Issue | app/xiq_api.py:266-282 | Corrected: a failed create or update raises APICallFailedException with the reason; characterised by `Reconcile.IssueHalves`, and used by `Reconcile.HandleSsid` and `Reconcile.ReconcileGroups`. |
| Reconcile.IssueHalves | app/xiq_api.py:266-282 | Both halves raise on exactly the same calls: those whose transport raised `HTTPError`, or returned no response, a rejected status or an unparsable body. As written, what is raised is never APICallFailedException; corrected, it always is, with the call's reason. |
| Reconcile.ExitStatus | XIQ_SSID_CCGs.py:131-150 | The exit status tells the cause apart: 5 exactly for a caught failed update, 6 exactly for a caught failed create, and the login-failure status 1 exactly when the exception escaped the handler. |
| Reconcile.FailedCallExitStatus | app/xiq_api.py:271-272 | As written, every failed update or create ends the script with status 1, the code reserved for a failed login, never 5 or 6. Corrected, they end with 5 for an update and 6 for a create. |
| Reconcile.FailedUpdateExample | app/xiq_api.py:280-281 | An update answered with status 500 ends with status 1 as written and 5 as intended. |
| Reconcile.HandleSsid | XIQ_SSID_CCGs.py:121-152 | The body of the loop for one SSID issues exactly the call its decision requires, and reports a failure exactly when that call is rejected. It uses the corrected call `Reconcile.Issue` from "## Findings", so the failure is an APICallFailedException; as written it is a TypeError. |
| Reconcile.AbortedRun | XIQ_SSID_CCGs.py:133-150 | A run stopped by a rejected call has issued a prefix of the planned calls, and not every planned call is accepted. |
| Reconcile.ReconcileGroups | XIQ_SSID_CCGs.py:120-152 | SSIDs are handled in map order. The calls issued are a prefix of the planned calls and end at the first rejected one. Everything before it was accepted and no later SSID is processed. The run completes exactly when every planned call is accepted. With the corrected calls of "## Findings", an abort exits with 5 for an update, 6 for a create; as written it exits with status 1. |
| Csv.CsvText | XIQ_SSID_CCGs.py:67-71 | The text `createCSV` writes; characterised by `Csv.CsvRoundTrip`. |
| Csv.CsvLineFields | XIQ_SSID_CCGs.py:71 | A record's line is its four fields joined by commas, so a record whose fields hold no comma or newline is read back from its line. |
| Csv.CsvBodyLines | XIQ_SSID_CCGs.py:70-71 | After the header there is one line per record, in order, each ended by a newline. |
| Csv.ParseLinesOfRecords | XIQ_SSID_CCGs.py:70-71 | The record lines read back into the records, in order. |
| Csv.CsvRoundTrip | XIQ_SSID_CCGs.py:67-71 | The file is the header `Device Name,Radio,SSID,BSSID`, then one line per record in order, and nothing after the last newline. With clean fields, reading it back yields exactly the records written. |
| Csv.UnquotedCommaIsAmbiguous | XIQ_SSID_CCGs.py:71 | There is no quoting: two different records with a comma inside a field are written as the same line. |
| Prompt.Classify | XIQ_SSID_CCGs.py:39-46 | How one answer is read; characterised by `Prompt.ClassifySpellings`. |
| Prompt.LowerToWord | XIQ_SSID_CCGs.py:39 | An answer lower-cases to a given lower-case word exactly when it spells that word with each letter in either case. |
| Prompt.ClassifySpellings | XIQ_SSID_CCGs.py:39-46 | The answers recognised are exactly the case variants of y/yes, n/no and q/quit, and anything else is asked again. |
| Prompt.YesNoLoop | XIQ_SSID_CCGs.py:36-49 | The first recognised answer decides and is returned as "y" or "n", or ends the script with status 0 for quit. Every answer before it was unrecognised and nothing after it is read. |
| Account.TokenHeaders | app/xiq_api.py:29-35 | A client built from a non-empty token has exactly the base headers plus `Authorization: Bearer <token>`. An empty token takes the login path, which is left out: the function yields nothing. |
| Account.SetExternalAccount | app/xiq_api.py:184-196 | The headers change only when the switch call succeeds and its body carries `access_token`. Then `Authorization` becomes "Bearer " followed by that token, and no other header changes. A failed call passes its reason on, and a success without a token fails. |
| Account.SwitchOverwrites | app/xiq_api.py:191-192 | Two successful switches leave exactly the headers a single switch to the second account would: the token is overwritten, nothing accumulates. |

## Left out

- HTTP transport (`requests`, proxies, certificate checks, urllib3
  warnings): a call's outcome is an abstract `Transport` value. Exceptions
  other than `HTTPError` raised by `requests` (connection errors, timeouts)
  are not modelled. On every path the model covers (the get/put/post
  wrappers, both collection loops, the account switch, the reconciliation
  calls) they escape every handler; only the login path, which is left out,
  catches them, with bare `except:` clauses (app/xiq_api.py:45, 131).
- Http.CheckResponse: on a rejected status, a body parsing to a JSON scalar
  raises TypeError in the source; see the next line.
- Http.RejectedStatusIgnoresBody: on a rejected status the source parses
  the body and evaluates `'error_message' in data` to log it. A body that
  parses to a JSON null, number or boolean makes that raise TypeError, which
  escapes every handler instead of APICallFailedException. The model's
  typed bodies do not represent such bodies.
- JSON encoding and decoding: a body either parses (a typed value) or not.
  The `KeyError`s and `TypeError`s the source would raise on a body missing
  an expected key or holding a wrongly typed value are not modelled. These
  include `total_pages`, `data`, `device_id`, `radios`, `name`, `ssid`,
  `hostname`, `id` and `page`, and a non-string `access_token`. Fields
  whose value is JSON `null` are also outside the typed bodies. The source
  raises nothing for a null `bssid`, `hostname`, `ssid` or radio `name`: it
  writes the text "None" into the CSV line, and a null `ssid` becomes a key
  of the SSID map.
- The pagination loops can run for ever against a misbehaving server. The
  `fuel` bound stands for that: `OutOfFuel` means "not ended within that
  many pages", not a behaviour of the source.
- Login with credentials (`__getAccessToken`, `login()`, `getpass`,
  `SystemExit` in `XIQ.__init__`): interactive and process-exit plumbing.
  Only the token-supplied constructor path and the account switch are
  modelled.
- `collectManagedAccount` is a single GET with no logic of its own, and
  `__delete_api_call` is unused.
- `__collectRadioInfo` and `__collectDevicesBatch` build URL strings. The
  model uses the request records those strings encode.
- app/logger.py, console printing, `time.sleep`, and the `input()` wait
  inside `exitOnEnter`. The model keeps the exit statuses only.
- The main script's sequencing outside the reconciliation loop is not
  modelled. This covers exit codes 2, 3 and 4 and the "continue?" question
  before the groups are fetched.
- The CSV file itself (opening, writing, closing): the model is the text
  written.
- Prompt.Lower: `str.lower()` is modelled for ASCII letters only. The
  answers it recognises are ASCII words, and no non-ASCII character lowers
  to a single letter of them.
- Prompt.YesNoLoop: running out of answers (`InputExhausted`) stands for
  `input()` raising `EOFError`. It is not a path the source handles.

## Findings

| source | as written | input that shows it | evidently intended | confidence | as-written member | corrected member |
|---|---|---|---|---|---|---|
| app/xiq_api.py:271-272 | `createCCG` and `updateCCG` (app/xiq_api.py:280-281) handle a failed call with `raise APICallFailedException`, with no argument. The exception class's constructor requires `message`, so Python raises TypeError instead. The script's `except APICallFailedException` around the call (XIQ_SSID_CCGs.py:133, 147) does not catch it, and the script dies with an uncaught exception and status 1, the login-failure code. | Any rejected update or create, e.g. an update answered with HTTP status 500 | Raise APICallFailedException with the reason, so the script logs the failure and exits through `exitOnEnter(5)` for an update or `exitOnEnter(6)` for a create | high; not executed | Reconcile.IssueAsWritten (exhibited by Reconcile.FailedCallExitStatus and Reconcile.FailedUpdateExample) | Reconcile.Issue (used by Reconcile.HandleSsid and Reconcile.ReconcileGroups, which end with 5 or 6) |

=== FILE: account.dfy ===
/** The client's request headers and the bearer token in them: the headers
    a client built from a token starts with (app/xiq_api.py:29, 34-35), and
    the switch to an external account (`setExternalAccount`,
    app/xiq_api.py:184-196), which replaces the token with the one the
    switch call returns. */
module Account {
  import opened Prelude
  import opened Http

  type Headers = map<string, string>

  const AuthorizationHeader: string := "Authorization"

  /** The body of a token-bearing response: `access_token` may be absent. */
  datatype TokenBody = TokenBody(accessToken: Option<string>)

  /** `POST /account/:switch?id=<viq_id>` with an empty payload. */
  type SwitchServer = int -> Transport<TokenBody>

  /** The headers and, on failure, the reason; on failure the client's
      headers are the ones it had. */
  datatype Switched = Switched(headers: Headers, error: Option<ApiError>)

  /** The headers every client starts with. */
  const BaseHeaders: Headers := map["Accept" := "application/json", "Content-Type" := "application/json"]

  /** `XIQ(token=...)`: a non-empty token is installed as a bearer token
      next to the base headers. An empty token is falsy and sends the
      client down the login path instead, which is not part of this model. */
  function TokenHeaders(token: string): (r: Option<Headers>)
    ensures r.Some? <==> token != ""
    ensures r.Some? ==> r.value.Keys == {"Accept", "Content-Type", AuthorizationHeader}
    ensures r.Some? ==> r.value[AuthorizationHeader] == "Bearer " + token
    ensures r.Some? ==> r.value["Accept"] == "application/json" && r.value["Content-Type"] == "application/json"
  {
    if token == "" then None
    else Some(BaseHeaders[AuthorizationHeader := "Bearer " + token])
  }

  /** `setExternalAccount(viq_id)`: the headers change only when the call
      succeeds and its body carries `access_token`; then the Authorization
      header becomes "Bearer " followed by that token and no other header
      changes. A failed call passes its reason on; a successful call
      without a token fails with `NoAccessToken`. */
  function SetExternalAccount(headers: Headers, server: SwitchServer, viqId: int): (r: Switched)
    ensures r.error.None? <==> ApiCall(server(viqId)).Success? && ApiCall(server(viqId)).value.accessToken.Some?
    ensures r.error.None? ==>
      && AuthorizationHeader in r.headers
      && r.headers[AuthorizationHeader] == "Bearer " + ApiCall(server(viqId)).value.accessToken.value
      && r.headers.Keys == headers.Keys + {AuthorizationHeader}
      && forall k :: k in headers && k != AuthorizationHeader ==> r.headers[k] == headers[k]
    ensures r.error.Some? ==> r.headers == headers
    ensures r.error.Some? && ApiCall(server(viqId)).Failure? ==> r.error.value == ApiCall(server(viqId)).error
    ensures r.error.Some? && ApiCall(server(viqId)).Success? ==> r.error.value == NoAccessToken
  {
    match ApiCall(server(viqId))
    case Failure(e) => Switched(headers, Some(e))
    case Success(data) =>
      match data.accessToken
      case Some(token) => Switched(headers[AuthorizationHeader := "Bearer " + token], None)
      case None => Switched(headers, Some(NoAccessToken))
  }

  /** Two successful switches leave the second account's token and the
      other headers as they were before the first: a switch overwrites the
      token, it does not accumulate anything. */
  lemma {:induction false} SwitchOverwrites(headers: Headers, first: SwitchServer, second: SwitchServer, a: int, b: int)
    requires SetExternalAccount(headers, first, a).error.None?
    requires SetExternalAccount(SetExternalAccount(headers, first, a).headers, second, b).error.None?
    ensures SetExternalAccount(SetExternalAccount(headers, first, a).headers, second, b).headers
         == SetExternalAccount(headers, second, b).headers
  {
    var h1 := SetExternalAccount(headers, first, a).headers;
    var h2 := SetExternalAccount(h1, second, b).headers;
    var h := SetExternalAccount(headers, second, b).headers;
    assert h2.Keys == h.Keys;
    forall k | k in h2 ensures h2[k] == h[k] {
      if k != AuthorizationHeader {
        assert k in h1 && h1[k] == headers[k];
      }
    }
  }
}

=== FILE: aggregation.dfy ===
/** The aggregation half of `collectSSIDDeviceList` (app/xiq_api.py:209-238):
    one radio-information page is fanned out into one observation per
    (device, radio, wlan) triple, each giving a CSV record and a
    (SSID, device id) pair for the insertion-ordered SSID map. */
module Aggregation {
  import opened Prelude

  /** A wlan entry: an SSID and, perhaps, a `bssid` field. */
  datatype Wlan = Wlan(ssid: string, bssid: Option<string>)

  /** A radio; `wlans` is `None` when the entry has no `wlans` key. */
  datatype Radio = Radio(name: string, wlans: Option<seq<Wlan>>)

  /** One entry of the radio-information response. */
  datatype RadioInfo = RadioInfo(deviceId: int, radios: seq<Radio>)

  /** A row of the CSV export. */
  datatype FlatRecord = FlatRecord(deviceName: string, radio: string, ssid: string, bssid: string)

  /** What the innermost loop body sees: the record it appends and the
      device id it files under the record's SSID. */
  datatype Observation = Observation(record: FlatRecord, deviceId: int)

  /** `radio.get("wlans", [])` */
  function WlansOf(r: Radio): seq<Wlan> {
    r.wlans.GetOr([])
  }

  /** `device_mapping.get(device_id, "Unknown")` */
  function DeviceName(names: map<int, string>, id: int): string {
    if id in names then names[id] else "Unknown"
  }

  /** The BSSID column (app/xiq_api.py:226-232). */
  function BssidOf(w: Wlan, sim: bool): string {
    if !sim then
      match w.bssid
      case Some(b) => b
      case None => "Unknown"
    else "Simulated"
  }

  function ObservationOf(name: string, id: int, radio: string, w: Wlan, sim: bool): Observation {
    Observation(FlatRecord(name, radio, w.ssid, BssidOf(w, sim)), id)
  }

  /** The innermost loop: one observation per wlan of one radio. */
  function WlanObservations(name: string, id: int, radio: string, ws: seq<Wlan>, sim: bool): seq<Observation> {
    seq(|ws|, k requires 0 <= k < |ws| => ObservationOf(name, id, radio, ws[k], sim))
  }

  /** The middle loop: the observations of every radio of one device, in order. */
  function RadioObservations(name: string, id: int, radios: seq<Radio>, sim: bool): seq<Observation>
    decreases |radios|
  {
    if |radios| == 0 then []
    else
      var r := radios[|radios| - 1];
      RadioObservations(name, id, radios[..|radios| - 1], sim) + WlanObservations(name, id, r.name, WlansOf(r), sim)
  }

  /** The outer loop: the observations of one radio-information page. */
  function PageObservations(infos: seq<RadioInfo>, names: map<int, string>, sim: bool): seq<Observation>
    decreases |infos|
  {
    if |infos| == 0 then []
    else
      var info := infos[|infos| - 1];
      PageObservations(infos[..|infos| - 1], names, sim)
        + RadioObservations(DeviceName(names, info.deviceId), info.deviceId, info.radios, sim)
  }

  /** The CSV records of a run of observations. */
  function RecordsOf(obs: seq<Observation>): seq<FlatRecord> {
    seq(|obs|, i requires 0 <= i < |obs| => obs[i].record)
  }

  lemma RecordsOfAppend(a: seq<Observation>, b: seq<Observation>)
    ensures RecordsOf(a + b) == RecordsOf(a) + RecordsOf(b)
  {
  }

  /** Number of wlans across a list of radios. */
  function WlanCount(radios: seq<Radio>): nat
    decreases |radios|
  {
    if |radios| == 0 then 0 else WlanCount(radios[..|radios| - 1]) + |WlansOf(radios[|radios| - 1])|
  }

  /** Number of (device, radio, wlan) triples on a page. */
  function TripleCount(infos: seq<RadioInfo>): nat
    decreases |infos|
  {
    if |infos| == 0 then 0 else TripleCount(infos[..|infos| - 1]) + WlanCount(infos[|infos| - 1].radios)
  }

  /** One observation (hence one CSV record) per triple. */
  lemma {:induction false} PageObservationCount(infos: seq<RadioInfo>, names: map<int, string>, sim: bool)
    ensures |PageObservations(infos, names, sim)| == TripleCount(infos)
    ensures |RecordsOf(PageObservations(infos, names, sim))| == TripleCount(infos)
    decreases |infos|
  {
    if |infos| > 0 {
      PageObservationCount(infos[..|infos| - 1], names, sim);
      var info := infos[|infos| - 1];
      RadioObservationCount(DeviceName(names, info.deviceId), info.deviceId, info.radios, sim);
    }
  }

  lemma {:induction false} RadioObservationCount(name: string, id: int, radios: seq<Radio>, sim: bool)
    ensures |RadioObservations(name, id, radios, sim)| == WlanCount(radios)
    decreases |radios|
  {
    if |radios| > 0 {
      RadioObservationCount(name, id, radios[..|radios| - 1], sim);
    }
  }

  /** Every observation of a device's radios comes from one of its radios'
      wlans, and every such wlan gives one. */
  lemma {:induction false} RadioObservationOrigin(name: string, id: int, radios: seq<Radio>, sim: bool, o: Observation)
    ensures o in RadioObservations(name, id, radios, sim) <==>
            exists r, w :: r in radios && w in WlansOf(r) && o == ObservationOf(name, id, r.name, w, sim)
    decreases |radios|
  {
    if |radios| > 0 {
      var init := radios[..|radios| - 1];
      var last := radios[|radios| - 1];
      RadioObservationOrigin(name, id, init, sim, o);
      var ws := WlansOf(last);
      assert o in WlanObservations(name, id, last.name, ws, sim) <==>
             exists w :: w in ws && o == ObservationOf(name, id, last.name, w, sim) by {
        if o in WlanObservations(name, id, last.name, ws, sim) {
          var k :| 0 <= k < |ws| && WlanObservations(name, id, last.name, ws, sim)[k] == o;
          assert ws[k] in ws;
        }
        if exists w :: w in ws && o == ObservationOf(name, id, last.name, w, sim) {
          var w :| w in ws && o == ObservationOf(name, id, last.name, w, sim);
          var k :| 0 <= k < |ws| && ws[k] == w;
          assert WlanObservations(name, id, last.name, ws, sim)[k] == o;
        }
      }
      assert forall r :: r in radios <==> r in init || r == last by {
        assert radios == init + [last];
      }
    }
  }

  /** One record per (device, radio, wlan) triple: a record is on the page
      iff some wlan of some radio of some device produced it, with the
      device's hostname from the page's AP mapping ("Unknown" for an id not
      in it), the radio's name, the wlan's SSID, and a BSSID that is
      "Simulated" in simulated mode, otherwise the wlan's `bssid` or
      "Unknown" when it has none. A radio without `wlans` contributes
      nothing. */
  lemma PageRecordOrigin(infos: seq<RadioInfo>, names: map<int, string>, sim: bool, o: Observation)
    ensures o in PageObservations(infos, names, sim) <==>
            exists info, r, w :: info in infos && r in info.radios && w in WlansOf(r) && IsTripleObservation(o, info, r, w, names, sim)
  {
    if o in PageObservations(infos, names, sim) {
      PageRecordSound(infos, names, sim, o);
    } else {
      forall info, r, w | info in infos && r in info.radios && w in WlansOf(r)
        ensures !IsTripleObservation(o, info, r, w, names, sim)
      {
        PageRecordComplete(infos, names, sim, info, r, w);
      }
    }
  }

  /** Every observation of a page comes from a triple of it. */
  lemma PageRecordSound(infos: seq<RadioInfo>, names: map<int, string>, sim: bool, o: Observation)
    requires o in PageObservations(infos, names, sim)
    ensures exists info, r, w :: info in infos && r in info.radios && w in WlansOf(r) && IsTripleObservation(o, info, r, w, names, sim)
  {
    PageObservationOrigin(infos, names, sim, o);
    var info :| info in infos && o in RadioObservations(DeviceName(names, info.deviceId), info.deviceId, info.radios, sim);
    RadioObservationOrigin(DeviceName(names, info.deviceId), info.deviceId, info.radios, sim, o);
    var r, w :| r in info.radios && w in WlansOf(r) && o == ObservationOf(DeviceName(names, info.deviceId), info.deviceId, r.name, w, sim);
    assert IsTripleObservation(o, info, r, w, names, sim);
  }

  /** Every triple of a page yields its observation, and only that one. */
  lemma PageRecordComplete(infos: seq<RadioInfo>, names: map<int, string>, sim: bool, info: RadioInfo, r: Radio, w: Wlan)
    requires info in infos && r in info.radios && w in WlansOf(r)
    ensures forall o :: IsTripleObservation(o, info, r, w, names, sim) ==> o in PageObservations(infos, names, sim)
  {
    var o := ObservationOf(DeviceName(names, info.deviceId), info.deviceId, r.name, w, sim);
    RadioObservationOrigin(DeviceName(names, info.deviceId), info.deviceId, info.radios, sim, o);
    PageObservationOrigin(infos, names, sim, o);
    forall o' | IsTripleObservation(o', info, r, w, names, sim) ensures o' in PageObservations(infos, names, sim) {
      assert o' == o;
    }
  }

  /** The observation for wlan `w` of radio `r` of device `info`, spelled
      out: the device's id, its hostname on the page or "Unknown", the
      radio's name, the wlan's SSID, and the BSSID rule. */
  ghost predicate IsTripleObservation(o: Observation, info: RadioInfo, r: Radio, w: Wlan, names: map<int, string>, sim: bool) {
    && o.deviceId == info.deviceId
    && o.record == FlatRecord(
         if info.deviceId in names then names[info.deviceId] else "Unknown",
         r.name,
         w.ssid,
         if sim then "Simulated" else if w.bssid.Some? then w.bssid.value else "Unknown")
  }

  /** Every observation of a page comes from one of its devices. */
  lemma {:induction false} PageObservationOrigin(infos: seq<RadioInfo>, names: map<int, string>, sim: bool, o: Observation)
    ensures o in PageObservations(infos, names, sim) <==>
            exists info :: info in infos &&
              o in RadioObservations(DeviceName(names, info.deviceId), info.deviceId, info.radios, sim)
    decreases |infos|
  {
    if |infos| > 0 {
      var init := infos[..|infos| - 1];
      var last := infos[|infos| - 1];
      PageObservationOrigin(init, names, sim, o);
      assert infos == init + [last];
      var lastObs := RadioObservations(DeviceName(names, last.deviceId), last.deviceId, last.radios, sim);
      assert o in PageObservations(infos, names, sim) ==>
             exists info :: info in infos && o in RadioObservations(DeviceName(names, info.deviceId), info.deviceId, info.radios, sim) by {
        if o in PageObservations(infos, names, sim) {
          if o in PageObservations(init, names, sim) {
            var info :| info in init && o in RadioObservations(DeviceName(names, info.deviceId), info.deviceId, info.radios, sim);
            assert info in infos;
          } else {
            assert o in lastObs && last in infos;
          }
        }
      }
      assert (exists info :: info in infos && o in RadioObservations(DeviceName(names, info.deviceId), info.deviceId, info.radios, sim))
             ==> o in PageObservations(infos, names, sim) by {
        if exists info :: info in infos && o in RadioObservations(DeviceName(names, info.deviceId), info.deviceId, info.radios, sim) {
          var info :| info in infos && o in RadioObservations(DeviceName(names, info.deviceId), info.deviceId, info.radios, sim);
          if info in init {
            assert o in PageObservations(init, names, sim);
          } else {
            assert info == last;
          }
        }
      }
    }
  }

  // ---------------------------------------------------------------------
  // The SSID map: `ssid_data`, an insertion-ordered dict from SSID to a
  // duplicate-free list of device ids.

  datatype SsidEntry = SsidEntry(ssid: string, deviceIds: seq<int>)

  /** Entries in insertion order; keys are distinct in every map built here. */
  type SsidMap = seq<SsidEntry>

  function Keys(m: SsidMap): seq<string> {
    seq(|m|, i requires 0 <= i < |m| => m[i].ssid)
  }

  /** `ssid_data.get(ssid)` */
  function Lookup(m: SsidMap, ssid: string): Option<seq<int>> {
    match IndexOf(Keys(m), ssid)
    case None => None
    case Some(i) => Some(m[i].deviceIds)
  }

  /** One update of the map (app/xiq_api.py:235-238). */
  function Observe(m: SsidMap, ssid: string, id: int): SsidMap {
    match IndexOf(Keys(m), ssid)
    case None => m + [SsidEntry(ssid, [id])]
    case Some(i) =>
      if id in m[i].deviceIds then m
      else m[i := SsidEntry(ssid, m[i].deviceIds + [id])]
  }

  /** What one update does to the dict: a new SSID is appended to the key
      order with a one-element list; a known SSID gets the device id
      appended unless it is already listed. No other SSID is touched and the
      key order only ever grows at the end. */
  lemma ObserveSpec(m: SsidMap, ssid: string, id: int)
    ensures Keys(Observe(m, ssid, id)) == if ssid in Keys(m) then Keys(m) else Keys(m) + [ssid]
    ensures Lookup(Observe(m, ssid, id), ssid) ==
            match Lookup(m, ssid)
            case None => Some([id])
            case Some(ids) => Some(if id in ids then ids else ids + [id])
    ensures forall k :: k != ssid ==> Lookup(Observe(m, ssid, id), k) == Lookup(m, k)
  {
    var r := Observe(m, ssid, id);
    match IndexOf(Keys(m), ssid)
    case None =>
      assert Keys(r) == Keys(m) + [ssid];
      forall k ensures Lookup(r, k) == if k == ssid then Some([id]) else Lookup(m, k) {
        IndexOfSnoc(Keys(m), ssid, k);
      }
    case Some(i) =>
      assert Keys(r) == Keys(m);
  }

  /** Folding `Observe` over a run of observations, in order. */
  function ObserveAll(m: SsidMap, obs: seq<Observation>): SsidMap
    decreases |obs|
  {
    if |obs| == 0 then m
    else
      var o := obs[|obs| - 1];
      Observe(ObserveAll(m, obs[..|obs| - 1]), o.record.ssid, o.deviceId)
  }

  lemma {:induction false} ObserveAllAppend(m: SsidMap, a: seq<Observation>, b: seq<Observation>)
    ensures ObserveAll(m, a + b) == ObserveAll(ObserveAll(m, a), b)
    decreases |b|
  {
    if |b| == 0 {
      assert a + b == a;
    } else {
      assert (a + b)[..|a + b| - 1] == a + b[..|b| - 1];
      ObserveAllAppend(m, a, b[..|b| - 1]);
    }
  }

  /** The SSIDs of a run of observations, in order. */
  function SsidsOf(obs: seq<Observation>): seq<string> {
    seq(|obs|, i requires 0 <= i < |obs| => obs[i].record.ssid)
  }

  /** The device ids observed broadcasting `ssid`, in order, repeats included. */
  function IdsFor(obs: seq<Observation>, ssid: string): seq<int>
    decreases |obs|
  {
    if |obs| == 0 then []
    else
      var o := obs[|obs| - 1];
      IdsFor(obs[..|obs| - 1], ssid) + (if o.record.ssid == ssid then [o.deviceId] else [])
  }

  lemma {:induction false} IdsForUnseen(obs: seq<Observation>, ssid: string)
    requires ssid !in SsidsOf(obs)
    ensures IdsFor(obs, ssid) == []
    decreases |obs|
  {
    if |obs| > 0 {
      assert SsidsOf(obs[..|obs| - 1]) == SsidsOf(obs)[..|obs| - 1];
      IdsForUnseen(obs[..|obs| - 1], ssid);
      assert SsidsOf(obs)[|obs| - 1] == obs[|obs| - 1].record.ssid;
    }
  }

  /** `m` is the map the observations determine: its keys are the observed
      SSIDs in order of first observation, and each key lists the ids of the
      devices observed broadcasting it, each once, in order of first
      observation. */
  ghost predicate MatchesObservations(m: SsidMap, obs: seq<Observation>) {
    && Keys(m) == Dedup(SsidsOf(obs))
    && forall k :: Lookup(m, k) == if k in SsidsOf(obs) then Some(Dedup(IdsFor(obs, k))) else None
  }

  /** One `Observe` keeps a map in step with one more observation. */
  lemma ObserveStep(m: SsidMap, init: seq<Observation>, o: Observation)
    requires MatchesObservations(m, init)
    ensures MatchesObservations(Observe(m, o.record.ssid, o.deviceId), init + [o])
  {
    var obs := init + [o];
    var s := o.record.ssid;
    var r := Observe(m, s, o.deviceId);
    assert Keys(r) == Dedup(SsidsOf(obs)) by {
      ObserveSpec(m, s, o.deviceId);
      SsidsOfSnoc(init, o);
      DedupSnoc(SsidsOf(init), s);
    }
    forall k
      ensures Lookup(r, k) == if k in SsidsOf(obs) then Some(Dedup(IdsFor(obs, k))) else None
    {
      if k == s {
        ObserveStepSame(m, init, o);
        SsidsOfSnoc(init, o);
      } else {
        ObserveSpec(m, s, o.deviceId);
        IdsForSnoc(init, o, k);
        SsidsOfSnoc(init, o);
        assert IdsFor(obs, k) == IdsFor(init, k);
      }
    }
  }

  lemma SsidsOfSnoc(init: seq<Observation>, o: Observation)
    ensures SsidsOf(init + [o]) == SsidsOf(init) + [o.record.ssid]
  {
  }

  lemma IdsForSnoc(init: seq<Observation>, o: Observation, k: string)
    ensures IdsFor(init + [o], k) == IdsFor(init, k) + (if o.record.ssid == k then [o.deviceId] else [])
  {
    assert (init + [o])[..|init|] == init;
  }

  /** The updated SSID's own entry after one more observation. */
  lemma ObserveStepSame(m: SsidMap, init: seq<Observation>, o: Observation)
    requires MatchesObservations(m, init)
    ensures Lookup(Observe(m, o.record.ssid, o.deviceId), o.record.ssid) == Some(Dedup(IdsFor(init + [o], o.record.ssid)))
  {
    var obs := init + [o];
    var s := o.record.ssid;
    ObserveSpec(m, s, o.deviceId);
    IdsForSnoc(init, o, s);
    if s in SsidsOf(init) {
      DedupSnoc(IdsFor(init, s), o.deviceId);
    } else {
      IdsForUnseen(init, s);
      assert Dedup([o.deviceId]) == [o.deviceId] by {
        assert [o.deviceId][..0] == [];
      }
    }
  }

  /** The SSID map built from nothing by the loop is the one the
      observations determine. */
  lemma {:induction false} SsidMapReference(obs: seq<Observation>)
    ensures MatchesObservations(ObserveAll([], obs), obs)
    decreases |obs|
  {
    if |obs| > 0 {
      var init := obs[..|obs| - 1];
      SsidMapReference(init);
      ObserveStep(ObserveAll([], init), init, obs[|obs| - 1]);
      assert init + [obs[|obs| - 1]] == obs;
    } else {
      assert Keys([]) == [];
    }
  }

  /** The two halves of the SSID-map promise: no SSID is listed twice, the
      keys are exactly the SSIDs of the records, and each key's list holds
      every device that broadcast it exactly once, even when several of its
      radios broadcast that SSID. */
  lemma SsidMapShape(obs: seq<Observation>)
    ensures Distinct(Keys(ObserveAll([], obs)))
    ensures forall k :: k in Keys(ObserveAll([], obs)) <==> k in SsidsOf(obs)
    ensures forall k, id :: Lookup(ObserveAll([], obs), k).Some? ==>
              (id in Lookup(ObserveAll([], obs), k).value <==> Observed(obs, k, id))
    ensures forall k :: Lookup(ObserveAll([], obs), k).Some? ==> Distinct(Lookup(ObserveAll([], obs), k).value)
  {
    SsidMapReference(obs);
    forall k, id ensures id in IdsFor(obs, k) <==> Observed(obs, k, id) {
      IdsForObserved(obs, k, id);
    }
  }

  /** Some observation files `id` under `ssid`. */
  ghost predicate Observed(obs: seq<Observation>, ssid: string, id: int) {
    exists i :: 0 <= i < |obs| && obs[i].record.ssid == ssid && obs[i].deviceId == id
  }

  lemma {:induction false} IdsForObserved(obs: seq<Observation>, ssid: string, id: int)
    ensures id in IdsFor(obs, ssid) <==> Observed(obs, ssid, id)
    decreases |obs|
  {
    if |obs| > 0 {
      var init := obs[..|obs| - 1];
      IdsForObserved(init, ssid, id);
      if Observed(obs, ssid, id) {
        var i :| 0 <= i < |obs| && obs[i].record.ssid == ssid && obs[i].deviceId == id;
        if i < |init| {
          assert init[i] == obs[i];
        }
      }
      if Observed(init, ssid, id) {
        var i :| 0 <= i < |init| && init[i].record.ssid == ssid && init[i].deviceId == id;
        assert obs[i] == init[i];
      }
    }
  }

  // ---------------------------------------------------------------------
  // The loops as written, one method per loop level.

  /** The innermost loop (app/xiq_api.py:223-238): one record per wlan of one
      radio, each device id filed under the wlan's SSID. */
  method AbsorbWlans(records: seq<FlatRecord>, ssids: SsidMap, deviceName: string, deviceId: int,
                     radioName: string, ws: seq<Wlan>, sim: bool)
    returns (records': seq<FlatRecord>, ssids': SsidMap)
    ensures records' == records + RecordsOf(WlanObservations(deviceName, deviceId, radioName, ws, sim))
    ensures ssids' == ObserveAll(ssids, WlanObservations(deviceName, deviceId, radioName, ws, sim))
  {
    records', ssids' := records, ssids;
    for k := 0 to |ws|
      invariant records' == records + RecordsOf(WlanObservations(deviceName, deviceId, radioName, ws[..k], sim))
      invariant ssids' == ObserveAll(ssids, WlanObservations(deviceName, deviceId, radioName, ws[..k], sim))
    {
      var wlan := ws[k];
      var bssid: string;
      if !sim {
        if wlan.bssid.Some? {
          bssid := wlan.bssid.value;
        } else {
          bssid := "Unknown";
        }
      } else {
        bssid := "Simulated";
      }
      var record := FlatRecord(deviceName, radioName, wlan.ssid, bssid);
      assert record == ObservationOf(deviceName, deviceId, radioName, wlan, sim).record;
      WlanStep(records, ssids, deviceName, deviceId, radioName, ws, k, sim, records', ssids');
      records' := records' + [record];
      ssids' := Observe(ssids', wlan.ssid, deviceId);
    }
    assert ws[..|ws|] == ws;
  }

  /** One iteration of the innermost loop extends both views by the next
      wlan's observation. */
  lemma WlanStep(records: seq<FlatRecord>, ssids: SsidMap, name: string, id: int, radio: string,
                 ws: seq<Wlan>, k: nat, sim: bool, r0: seq<FlatRecord>, m0: SsidMap)
    requires k < |ws|
    requires r0 == records + RecordsOf(WlanObservations(name, id, radio, ws[..k], sim))
    requires m0 == ObserveAll(ssids, WlanObservations(name, id, radio, ws[..k], sim))
    ensures r0 + [ObservationOf(name, id, radio, ws[k], sim).record]
         == records + RecordsOf(WlanObservations(name, id, radio, ws[..k + 1], sim))
    ensures Observe(m0, ws[k].ssid, id) == ObserveAll(ssids, WlanObservations(name, id, radio, ws[..k + 1], sim))
  {
    var o := ObservationOf(name, id, radio, ws[k], sim);
    var prev := WlanObservations(name, id, radio, ws[..k], sim);
    var next := WlanObservations(name, id, radio, ws[..k + 1], sim);
    assert next == prev + [o];
    assert next[..|next| - 1] == prev;
    RecordsOfAppend(prev, [o]);
  }

  lemma RadioObservationsSnoc(name: string, id: int, radios: seq<Radio>, j: nat, sim: bool)
    requires j < |radios|
    ensures RadioObservations(name, id, radios[..j + 1], sim)
         == RadioObservations(name, id, radios[..j], sim) + WlanObservations(name, id, radios[j].name, WlansOf(radios[j]), sim)
  {
    assert radios[..j + 1][..j] == radios[..j];
  }

  lemma PageObservationsSnoc(infos: seq<RadioInfo>, i: nat, names: map<int, string>, sim: bool)
    requires i < |infos|
    ensures PageObservations(infos[..i + 1], names, sim)
         == PageObservations(infos[..i], names, sim)
            + RadioObservations(DeviceName(names, infos[i].deviceId), infos[i].deviceId, infos[i].radios, sim)
  {
    assert infos[..i + 1][..i] == infos[..i];
  }

  /** The middle loop (app/xiq_api.py:221-238): every radio of one device. */
  method AbsorbRadios(records: seq<FlatRecord>, ssids: SsidMap, deviceName: string, deviceId: int,
                      radios: seq<Radio>, sim: bool)
    returns (records': seq<FlatRecord>, ssids': SsidMap)
    ensures records' == records + RecordsOf(RadioObservations(deviceName, deviceId, radios, sim))
    ensures ssids' == ObserveAll(ssids, RadioObservations(deviceName, deviceId, radios, sim))
  {
    records', ssids' := records, ssids;
    for j := 0 to |radios|
      invariant records' == records + RecordsOf(RadioObservations(deviceName, deviceId, radios[..j], sim))
      invariant ssids' == ObserveAll(ssids, RadioObservations(deviceName, deviceId, radios[..j], sim))
    {
      var radio := radios[j];
      var r, m := AbsorbWlans(records', ssids', deviceName, deviceId, radio.name, WlansOf(radio), sim);
      RadioStep(records, ssids, deviceName, deviceId, radios, j, sim, records', ssids', r, m);
      records', ssids' := r, m;
    }
    assert radios[..|radios|] == radios;
  }

  /** Absorbing radio `j` of a device extends the radio prefix by one. */
  lemma RadioStep(records: seq<FlatRecord>, ssids: SsidMap, name: string, id: int, radios: seq<Radio>, j: nat, sim: bool,
                  r0: seq<FlatRecord>, m0: SsidMap, r: seq<FlatRecord>, m: SsidMap)
    requires j < |radios|
    requires r0 == records + RecordsOf(RadioObservations(name, id, radios[..j], sim))
    requires m0 == ObserveAll(ssids, RadioObservations(name, id, radios[..j], sim))
    requires var more := WlanObservations(name, id, radios[j].name, WlansOf(radios[j]), sim);
             r == r0 + RecordsOf(more) && m == ObserveAll(m0, more)
    ensures r == records + RecordsOf(RadioObservations(name, id, radios[..j + 1], sim))
    ensures m == ObserveAll(ssids, RadioObservations(name, id, radios[..j + 1], sim))
  {
    var prev := RadioObservations(name, id, radios[..j], sim);
    var more := WlanObservations(name, id, radios[j].name, WlansOf(radios[j]), sim);
    RadioObservationsSnoc(name, id, radios, j, sim);
    AppendStep(records, ssids, prev, more, r0, m0, r, m);
  }

  /** Absorbing device `i` of a page extends the page prefix by one. */
  lemma PageStep(records: seq<FlatRecord>, ssids: SsidMap, infos: seq<RadioInfo>, i: nat,
                 names: map<int, string>, sim: bool,
                 r0: seq<FlatRecord>, m0: SsidMap, r: seq<FlatRecord>, m: SsidMap)
    requires i < |infos|
    requires r0 == records + RecordsOf(PageObservations(infos[..i], names, sim))
    requires m0 == ObserveAll(ssids, PageObservations(infos[..i], names, sim))
    requires var more := RadioObservations(DeviceName(names, infos[i].deviceId), infos[i].deviceId, infos[i].radios, sim);
             r == r0 + RecordsOf(more) && m == ObserveAll(m0, more)
    ensures r == records + RecordsOf(PageObservations(infos[..i + 1], names, sim))
    ensures m == ObserveAll(ssids, PageObservations(infos[..i + 1], names, sim))
  {
    var prev := PageObservations(infos[..i], names, sim);
    var more := RadioObservations(DeviceName(names, infos[i].deviceId), infos[i].deviceId, infos[i].radios, sim);
    PageObservationsSnoc(infos, i, names, sim);
    AppendStep(records, ssids, prev, more, r0, m0, r, m);
  }

  /** Absorbing one more run of observations after a prefix. */
  lemma AppendStep(records: seq<FlatRecord>, ssids: SsidMap, prev: seq<Observation>, more: seq<Observation>,
                   r0: seq<FlatRecord>, m0: SsidMap, r: seq<FlatRecord>, m: SsidMap)
    requires r0 == records + RecordsOf(prev) && m0 == ObserveAll(ssids, prev)
    requires r == r0 + RecordsOf(more) && m == ObserveAll(m0, more)
    ensures r == records + RecordsOf(prev + more)
    ensures m == ObserveAll(ssids, prev + more)
  {
    assert r == records + RecordsOf(prev + more) by {
      RecordsOfAppend(prev, more);
    }
    assert m == ObserveAll(ssids, prev + more) by {
      ObserveAllAppend(ssids, prev, more);
    }
  }

  /** The outer loop over one radio-information page (app/xiq_api.py:218-238):
      the page's observations are appended to the records and folded into
      the SSID map, in encounter order. */
  method AbsorbRadioInfo(records: seq<FlatRecord>, ssids: SsidMap, infos: seq<RadioInfo>,
                         names: map<int, string>, sim: bool)
    returns (records': seq<FlatRecord>, ssids': SsidMap)
    ensures records' == records + RecordsOf(PageObservations(infos, names, sim))
    ensures ssids' == ObserveAll(ssids, PageObservations(infos, names, sim))
  {
    records', ssids' := records, ssids;
    for i := 0 to |infos|
      invariant records' == records + RecordsOf(PageObservations(infos[..i], names, sim))
      invariant ssids' == ObserveAll(ssids, PageObservations(infos[..i], names, sim))
    {
      var info := infos[i];
      var deviceName := DeviceName(names, info.deviceId);
      var r, m := AbsorbRadios(records', ssids', deviceName, info.deviceId, info.radios, sim);
      PageStep(records, ssids, infos, i, names, sim, records', ssids', r, m);
      records', ssids' := r, m;
    }
    assert infos[..|infos|] == infos;
  }
}

=== FILE: collection.dfy ===
/** The two pagination loops of the API client: `collectSSIDDeviceList`
    (app/xiq_api.py:199-243) and `collectCCG` (app/xiq_api.py:246-264).
    The servers are functions from request to transport outcome; each loop
    carries a `fuel` bound on the number of pages it may fetch, since a
    server can keep either loop going for ever. The result records the page
    numbers requested, in order, next to the outcome. */
module Collection {
  import opened Prelude
  import opened Http
  import opened Devices
  import opened Aggregation
  import opened Groups

  /** `GET /devices/radio-information?page=&limit=&deviceIds=a,b,c` */
  datatype RadioRequest = RadioRequest(page: int, limit: int, deviceIds: seq<int>)

  /** The parsed body of a radio-information response. */
  datatype RadioPage = RadioPage(data: seq<RadioInfo>)

  type RadioServer = RadioRequest -> Transport<RadioPage>

  /** `GET /ccgs?page=&limit=` */
  datatype CcgRequest = CcgRequest(page: int, limit: int)

  /** The parsed body of a group page; `page` is the server's echo. */
  datatype CcgPage = CcgPage(data: seq<Group>, totalPages: int, page: int)

  type CcgServer = CcgRequest -> Transport<CcgPage>

  /** How a paginated collection ended. A failed page leaves no partial
      result; `OutOfFuel` stands for a loop that has not ended within the
      fuel bound. */
  datatype Run<T> = Done(value: T) | Failed(error: ApiError) | OutOfFuel

  /** An outcome with the page numbers requested on the way, in order. */
  datatype Paged<T> = Paged(run: Run<T>, pages: seq<int>)

  /** The two views `collectSSIDDeviceList` returns. */
  datatype Collected = Collected(records: seq<FlatRecord>, ssids: SsidMap)

  // ---------------------------------------------------------------------
  // Device and radio pagination

  /** The radio-information query issued for device page `page`
      (app/xiq_api.py:212-214): it carries the device page number unchanged,
      the page size, and every AP id of that page once, in order of first
      occurrence. */
  function RadioRequestFor(page: int, aps: seq<Device>): (q: RadioRequest)
    ensures q.page == page && q.limit == PageSize
    ensures q.deviceIds == ApIds(aps)
    ensures Distinct(q.deviceIds)
    ensures forall id :: id in q.deviceIds <==> exists d :: d in aps && d.id == id
  {
    var ids := ApIds(aps);
    assert forall id :: id in IdsOf(aps) <==> exists d :: d in aps && d.id == id by {
      forall id | id in IdsOf(aps) ensures exists d :: d in aps && d.id == id {
        var i :| 0 <= i < |aps| && IdsOf(aps)[i] == id;
        assert aps[i] in aps;
      }
      forall id | exists d :: d in aps && d.id == id ensures id in IdsOf(aps) {
        var d :| d in aps && d.id == id;
        var i :| 0 <= i < |aps| && aps[i] == d;
        assert IdsOf(aps)[i] == id;
      }
    }
    RadioRequest(page, PageSize, ids)
  }

  /** What one iteration of the device loop learns: the page count the
      device page reported and the page's observations. */
  datatype PageResult = PageResult(pageCount: int, observations: seq<Observation>)

  /** One iteration's two calls (app/xiq_api.py:205-238): the device page,
      then the radio information for its APs; either failure ends it. */
  function FetchPage(devices: DeviceServer, radios: RadioServer, sim: bool, page: int): Result<PageResult> {
    match CollectDevicesBatch(devices, page, sim)
    case Failure(e) => Failure(e)
    case Success(batch) =>
      match ApiCall(radios(RadioRequestFor(page, batch.aps)))
      case Failure(e) => Failure(e)
      case Success(body) =>
        Success(PageResult(batch.pageCount, PageObservations(body.data, HostNames(batch.aps), sim)))
  }

  /** Both calls for `page` succeed and the loop goes on: the count the page
      reports is at least the next page number. */
  ghost predicate DeviceContinues(fetch: int -> Result<PageResult>, page: int) {
    fetch(page).Success? && page + 1 <= fetch(page).value.pageCount
  }

  /** Both calls for `page` succeed and the loop stops after it. */
  ghost predicate DeviceStops(fetch: int -> Result<PageResult>, page: int) {
    fetch(page).Success? && page + 1 > fetch(page).value.pageCount
  }

  /** Absorbing one page's observations into the two views. */
  function Absorb(acc: Collected, obs: seq<Observation>): Collected {
    Collected(acc.records + RecordsOf(obs), ObserveAll(acc.ssids, obs))
  }

  /** `while page <= pageCount` from `page` on, each iteration being
      `fetch(page)`: the bound is overwritten by every device page's
      `total_pages` (app/xiq_api.py:206) and the page number is advanced
      locally (app/xiq_api.py:241). */
  function DeviceLoop(fetch: int -> Result<PageResult>, page: int, pageCount: int, acc: Collected, fuel: nat): Paged<Collected>
    decreases fuel
  {
    if page > pageCount then Paged(Done(acc), [])
    else if fuel == 0 then Paged(OutOfFuel, [])
    else
      match fetch(page)
      case Failure(e) => Paged(Failed(e), [page])
      case Success(p) =>
        var rest := DeviceLoop(fetch, page + 1, p.pageCount, Absorb(acc, p.observations), fuel - 1);
        Paged(rest.run, [page] + rest.pages)
  }

  /** The iteration body of `collectSSIDDeviceList` as a function of the page. */
  function DeviceFetch(devices: DeviceServer, radios: RadioServer, sim: bool): int -> Result<PageResult> {
    page => FetchPage(devices, radios, sim, page)
  }

  /** `collectSSIDDeviceList(sim)`: start at page 1 with a bound of 1. */
  function CollectSsidDeviceList(devices: DeviceServer, radios: RadioServer, sim: bool, fuel: nat): Paged<Collected> {
    DeviceLoop(DeviceFetch(devices, radios, sim), 1, 1, Collected([], []), fuel)
  }

  /** The observations of a run of pages, in page order (none for a failed page). */
  function AllObs(fetch: int -> Result<PageResult>, pages: seq<int>): seq<Observation>
    decreases |pages|
  {
    if |pages| == 0 then []
    else (if fetch(pages[0]).Success? then fetch(pages[0]).value.observations else []) + AllObs(fetch, pages[1..])
  }

  /** The page numbers the device loop requests from any starting state:
      consecutive from `page`, at most one per unit of fuel. */
  lemma {:induction false} DeviceLoopNumbers(fetch: int -> Result<PageResult>, page: int, pageCount: int, acc: Collected, fuel: nat)
    ensures var r := DeviceLoop(fetch, page, pageCount, acc, fuel);
      && |r.pages| <= fuel
      && (forall i :: 0 <= i < |r.pages| ==> r.pages[i] == page + i)
      && (r.run.OutOfFuel? ==> |r.pages| == fuel)
      && (page <= pageCount && fuel > 0 ==> |r.pages| >= 1)
    decreases fuel
  {
    if page <= pageCount && fuel > 0 && fetch(page).Success? {
      var p := fetch(page).value;
      DeviceLoopNumbers(fetch, page + 1, p.pageCount, Absorb(acc, p.observations), fuel - 1);
    }
  }

  /** Why the device loop went on and why it ended, from any starting state. */
  lemma {:induction false} DeviceLoopReasons(fetch: int -> Result<PageResult>, page: int, pageCount: int, acc: Collected, fuel: nat)
    ensures var r := DeviceLoop(fetch, page, pageCount, acc, fuel);
      && (forall i :: 0 <= i < |r.pages| - 1 ==> DeviceContinues(fetch, r.pages[i]))
      && (r.run.Done? ==> (|r.pages| == 0 <==> page > pageCount))
      && (r.run.Done? && |r.pages| > 0 ==> DeviceStops(fetch, r.pages[|r.pages| - 1]))
      && (r.run.Failed? ==> |r.pages| > 0 && fetch(r.pages[|r.pages| - 1]) == Failure(r.run.error))
    decreases fuel
  {
    if page <= pageCount && fuel > 0 && fetch(page).Success? {
      var p := fetch(page).value;
      DeviceLoopReasons(fetch, page + 1, p.pageCount, Absorb(acc, p.observations), fuel - 1);
    }
  }

  /** Absorbing two runs of observations one after the other is absorbing
      their concatenation. */
  lemma AbsorbAppend(acc: Collected, a: seq<Observation>, b: seq<Observation>)
    ensures Absorb(Absorb(acc, a), b) == Absorb(acc, a + b)
  {
    var y := Absorb(Absorb(acc, a), b);
    var z := Absorb(acc, a + b);
    assert y.records == z.records by {
      RecordsOfAppend(a, b);
    }
    assert y.ssids == z.ssids by {
      ObserveAllAppend(acc.ssids, a, b);
    }
  }

  lemma AllObsCons(fetch: int -> Result<PageResult>, page: int, rest: seq<int>)
    requires fetch(page).Success?
    ensures AllObs(fetch, [page] + rest) == fetch(page).value.observations + AllObs(fetch, rest)
  {
    assert ([page] + rest)[1..] == rest;
  }

  /** What the device loop accumulates from any starting state: the records
      and SSID-map updates of exactly the pages it requested, in order. */
  lemma {:induction false} DeviceLoopAccumulates(fetch: int -> Result<PageResult>, page: int, pageCount: int, acc: Collected, fuel: nat)
    ensures var r := DeviceLoop(fetch, page, pageCount, acc, fuel);
      r.run.Done? ==> r.run.value == Absorb(acc, AllObs(fetch, r.pages))
    decreases fuel
  {
    if page > pageCount {
      assert acc.records + RecordsOf([]) == acc.records;
    } else if fuel > 0 && fetch(page).Success? {
      var p := fetch(page).value;
      var acc' := Absorb(acc, p.observations);
      var rest := DeviceLoop(fetch, page + 1, p.pageCount, acc', fuel - 1);
      DeviceLoopAccumulates(fetch, page + 1, p.pageCount, acc', fuel - 1);
      AllObsCons(fetch, page, rest.pages);
      AbsorbAppend(acc, p.observations, AllObs(fetch, rest.pages));
    }
  }

  /** The bound is re-read on every page: a server whose first page
      reports 2 pages and whose later pages report 3 is read to page 3, not
      stopped at the first page's count. */
  lemma DeviceBoundIsReread()
    ensures var fetch: int -> Result<PageResult> := p => Success(PageResult(if p == 1 then 2 else 3, []));
      DeviceLoop(fetch, 1, 1, Collected([], []), 5).pages == [1, 2, 3]
  {
    var fetch: int -> Result<PageResult> := p => Success(PageResult(if p == 1 then 2 else 3, []));
    var acc := Collected([], []);
    assert Absorb(acc, []) == acc by {
      assert acc.records + RecordsOf([]) == acc.records;
    }
    assert DeviceLoop(fetch, 4, 3, acc, 2).pages == [];
    assert DeviceLoop(fetch, 3, 3, acc, 3).pages == [3];
    assert DeviceLoop(fetch, 2, 2, acc, 4).pages == [2, 3];
  }

  /** Device pagination: at least one page is fetched; pages are requested
      1, 2, 3, ... with no gap; every page but the last reported a
      `total_pages` beyond it, and a completed collection stopped because the
      last page's own `total_pages` is below the next page number. A failing
      call ends the collection on the page it failed on, with no result. */
  lemma DevicePagination(devices: DeviceServer, radios: RadioServer, sim: bool, fuel: nat)
    ensures var fetch := DeviceFetch(devices, radios, sim);
            var r := CollectSsidDeviceList(devices, radios, sim, fuel);
      && |r.pages| <= fuel
      && (fuel > 0 ==> |r.pages| >= 1)
      && (forall i :: 0 <= i < |r.pages| ==> r.pages[i] == i + 1)
      && (forall i :: 0 <= i < |r.pages| - 1 ==> DeviceContinues(fetch, r.pages[i]))
      && (r.run.Done? ==> |r.pages| >= 1 && DeviceStops(fetch, |r.pages|))
      && (r.run.Failed? ==> |r.pages| >= 1 && FetchPage(devices, radios, sim, |r.pages|) == Failure(r.run.error))
      && (r.run.OutOfFuel? ==> |r.pages| == fuel)
  {
    var fetch := DeviceFetch(devices, radios, sim);
    DeviceLoopNumbers(fetch, 1, 1, Collected([], []), fuel);
    DeviceLoopReasons(fetch, 1, 1, Collected([], []), fuel);
  }

  /** A completed device collection holds one record per (device, radio,
      wlan) triple of every page fetched, in encounter order, and the SSID
      map those observations determine (keys in first-observation order,
      each device once per SSID). */
  lemma DeviceCollectionViews(devices: DeviceServer, radios: RadioServer, sim: bool, fuel: nat)
    ensures var fetch := DeviceFetch(devices, radios, sim);
            var r := CollectSsidDeviceList(devices, radios, sim, fuel);
      r.run.Done? ==>
        && r.run.value.records == RecordsOf(AllObs(fetch, r.pages))
        && MatchesObservations(r.run.value.ssids, AllObs(fetch, r.pages))
  {
    var fetch := DeviceFetch(devices, radios, sim);
    var r := CollectSsidDeviceList(devices, radios, sim, fuel);
    DeviceLoopAccumulates(fetch, 1, 1, Collected([], []), fuel);
    var obs := AllObs(fetch, r.pages);
    assert [] + RecordsOf(obs) == RecordsOf(obs);
    SsidMapReference(obs);
  }

  // ---------------------------------------------------------------------
  // Group pagination

  function FetchCcgPage(server: CcgServer, page: int): Result<CcgPage> {
    ApiCall(server(CcgRequest(page, PageSize)))
  }

  /** The page succeeds and the loop asks for the page after the echo. */
  ghost predicate CcgContinues(fetch: int -> Result<CcgPage>, page: int) {
    fetch(page).Success? && fetch(page).value.page + 1 <= fetch(page).value.totalPages
  }

  ghost predicate CcgStops(fetch: int -> Result<CcgPage>, page: int) {
    fetch(page).Success? && fetch(page).value.page + 1 > fetch(page).value.totalPages
  }

  /** `while page <= pageCount` from `page` on (app/xiq_api.py:252-263):
      `firstCall` is never cleared, so the bound is overwritten by every
      page's `total_pages`, and the next page is the server's echo plus one. */
  function CcgLoop(fetch: int -> Result<CcgPage>, page: int, pageCount: int, acc: seq<Group>, fuel: nat): Paged<seq<Group>>
    decreases fuel
  {
    if page > pageCount then Paged(Done(acc), [])
    else if fuel == 0 then Paged(OutOfFuel, [])
    else
      match fetch(page)
      case Failure(e) => Paged(Failed(e), [page])
      case Success(body) =>
        var rest := CcgLoop(fetch, body.page + 1, body.totalPages, acc + body.data, fuel - 1);
        Paged(rest.run, [page] + rest.pages)
  }

  function CcgFetch(server: CcgServer): int -> Result<CcgPage> {
    page => FetchCcgPage(server, page)
  }

  /** `collectCCG()` */
  function CollectCcg(server: CcgServer, fuel: nat): Paged<seq<Group>> {
    CcgLoop(CcgFetch(server), 1, 1, [], fuel)
  }

  /** The groups of a run of pages, in page order (none for a failed page). */
  function AllGroups(fetch: int -> Result<CcgPage>, pages: seq<int>): seq<Group>
    decreases |pages|
  {
    if |pages| == 0 then []
    else (if fetch(pages[0]).Success? then fetch(pages[0]).value.data else []) + AllGroups(fetch, pages[1..])
  }

  /** The page numbers the group loop requests from any starting state. */
  lemma {:induction false} CcgLoopNumbers(fetch: int -> Result<CcgPage>, page: int, pageCount: int, acc: seq<Group>, fuel: nat)
    ensures var r := CcgLoop(fetch, page, pageCount, acc, fuel);
      && |r.pages| <= fuel
      && (|r.pages| > 0 ==> r.pages[0] == page)
      && (page <= pageCount && fuel > 0 ==> |r.pages| >= 1)
      && (forall i :: 0 <= i < |r.pages| - 1 ==>
            CcgContinues(fetch, r.pages[i]) && r.pages[i + 1] == fetch(r.pages[i]).value.page + 1)
      && (r.run.OutOfFuel? ==> |r.pages| == fuel)
    decreases fuel
  {
    if page <= pageCount && fuel > 0 && fetch(page).Success? {
      var body := fetch(page).value;
      CcgLoopNumbers(fetch, body.page + 1, body.totalPages, acc + body.data, fuel - 1);
    }
  }

  /** How the group loop ended, and what it collected, from any starting state. */
  lemma {:induction false} CcgLoopEnds(fetch: int -> Result<CcgPage>, page: int, pageCount: int, acc: seq<Group>, fuel: nat)
    ensures var r := CcgLoop(fetch, page, pageCount, acc, fuel);
      && (r.run.Done? ==> (|r.pages| == 0 <==> page > pageCount))
      && (r.run.Done? && |r.pages| > 0 ==> CcgStops(fetch, r.pages[|r.pages| - 1]))
      && (r.run.Done? ==> r.run.value == acc + AllGroups(fetch, r.pages))
      && (r.run.Failed? ==> |r.pages| > 0 && fetch(r.pages[|r.pages| - 1]) == Failure(r.run.error))
    decreases fuel
  {
    if page > pageCount {
      assert acc + [] == acc;
    } else if fuel > 0 && fetch(page).Success? {
      var body := fetch(page).value;
      var rest := CcgLoop(fetch, body.page + 1, body.totalPages, acc + body.data, fuel - 1);
      CcgLoopEnds(fetch, body.page + 1, body.totalPages, acc + body.data, fuel - 1);
      var pages := [page] + rest.pages;
      assert pages[1..] == rest.pages;
      assert AllGroups(fetch, pages) == body.data + AllGroups(fetch, rest.pages);
      assert acc + body.data + AllGroups(fetch, rest.pages) == acc + AllGroups(fetch, pages);
    }
  }

  /** Group pagination: the first request is page 1; each next request is
      the page number the server echoed plus one, never a local counter; the
      loop goes on while that number is within the `total_pages` of the page
      just read, and a completed collection is the concatenation of every
      fetched page's groups, in order. */
  lemma CcgPagination(server: CcgServer, fuel: nat)
    ensures var fetch := CcgFetch(server);
            var r := CollectCcg(server, fuel);
      && |r.pages| <= fuel
      && (fuel > 0 ==> |r.pages| >= 1 && r.pages[0] == 1)
      && (forall i :: 0 <= i < |r.pages| - 1 ==>
            CcgContinues(fetch, r.pages[i]) && r.pages[i + 1] == FetchCcgPage(server, r.pages[i]).value.page + 1)
      && (r.run.Done? ==> |r.pages| >= 1 && CcgStops(fetch, r.pages[|r.pages| - 1]))
      && (r.run.Done? ==> r.run.value == AllGroups(fetch, r.pages))
      && (r.run.Failed? ==> |r.pages| >= 1 && FetchCcgPage(server, r.pages[|r.pages| - 1]) == Failure(r.run.error))
      && (r.run.OutOfFuel? ==> |r.pages| == fuel)
  {
    var fetch := CcgFetch(server);
    CcgLoopNumbers(fetch, 1, 1, [], fuel);
    CcgLoopEnds(fetch, 1, 1, [], fuel);
    assert [] + AllGroups(fetch, CollectCcg(server, fuel).pages) == AllGroups(fetch, CollectCcg(server, fuel).pages);
  }

  /** The next group page is the server's echo plus one: a server that
      keeps echoing page 0 while reporting at least one page is asked for
      page 1 again and again, and the loop never ends however much fuel it
      is given. */
  lemma StaleEchoNeverEnds(server: CcgServer, fuel: nat)
    requires forall q :: ApiCall(server(q)).Success? && ApiCall(server(q)).value.page == 0 && ApiCall(server(q)).value.totalPages >= 1
    ensures CollectCcg(server, fuel).run.OutOfFuel?
    ensures forall i :: 0 <= i < |CollectCcg(server, fuel).pages| ==> CollectCcg(server, fuel).pages[i] == 1
  {
    StaleEchoFrom(CcgFetch(server), 1, [], fuel);
  }

  /** From any state asking for page 1 under a bound of at least 1. */
  lemma {:induction false} StaleEchoFrom(fetch: int -> Result<CcgPage>, bound: int, acc: seq<Group>, fuel: nat)
    requires forall p :: fetch(p).Success? && fetch(p).value.page == 0 && fetch(p).value.totalPages >= 1
    requires bound >= 1
    ensures CcgLoop(fetch, 1, bound, acc, fuel).run.OutOfFuel?
    ensures forall i :: 0 <= i < |CcgLoop(fetch, 1, bound, acc, fuel).pages| ==> CcgLoop(fetch, 1, bound, acc, fuel).pages[i] == 1
    decreases fuel
  {
    if fuel > 0 {
      var body := fetch(1).value;
      StaleEchoFrom(fetch, body.totalPages, acc + body.data, fuel - 1);
    }
  }
}

=== FILE: csv.dfy ===
/** The text `createCSV` writes (XIQ_SSID_CCGs.py:67-71): a header line,
    then one line per record, each the record's four fields joined by
    commas with no quoting or escaping, every line ended by a newline.
    Writing the file is left out; the model is the text. A splitting parser
    is the partner: it recovers the records from the text exactly when no
    field holds a comma or a newline. */
module Csv {
  import opened Prelude
  import opened Aggregation

  const Header: string := "Device Name,Radio,SSID,BSSID"

  /** `f"{device_name},{radio},{ssid},{bssid}"` */
  function CsvLine(r: FlatRecord): string {
    r.deviceName + "," + r.radio + "," + r.ssid + "," + r.bssid
  }

  /** The record lines, each ended by a newline, in order. */
  function CsvBody(records: seq<FlatRecord>): string
    decreases |records|
  {
    if |records| == 0 then ""
    else CsvLine(records[0]) + "\n" + CsvBody(records[1..])
  }

  /** The whole file content. */
  function CsvText(records: seq<FlatRecord>): string {
    Header + "\n" + CsvBody(records)
  }

  /** The pieces of `s` between occurrences of `sep`; always at least one. */
  function Split(s: string, sep: char): (r: seq<string>)
    ensures |r| >= 1
    decreases |s|
  {
    if |s| == 0 then [""]
    else
      var rest := Split(s[1..], sep);
      if s[0] == sep then [""] + rest
      else [[s[0]] + rest[0]] + rest[1..]
  }

  /** A field is clean when it holds no separator of the format. */
  predicate CleanField(f: string) {
    ',' !in f && '\n' !in f
  }

  predicate CleanRecord(r: FlatRecord) {
    CleanField(r.deviceName) && CleanField(r.radio) && CleanField(r.ssid) && CleanField(r.bssid)
  }

  /** Reads one line back into a record: exactly four comma-separated fields. */
  function ParseLine(line: string): Option<FlatRecord> {
    var f := Split(line, ',');
    if |f| == 4 then Some(FlatRecord(f[0], f[1], f[2], f[3])) else None
  }

  function ParseLines(lines: seq<string>): Option<seq<FlatRecord>>
    decreases |lines|
  {
    if |lines| == 0 then Some([])
    else
      match ParseLine(lines[0])
      case None => None
      case Some(r) =>
        match ParseLines(lines[1..])
        case None => None
        case Some(rs) => Some([r] + rs)
  }

  /** Reads a whole file back: the header line, record lines, and nothing
      after the last newline. */
  function ParseCsv(text: string): Option<seq<FlatRecord>> {
    var lines := Split(text, '\n');
    if |lines| >= 2 && lines[0] == Header && lines[|lines| - 1] == "" then
      ParseLines(lines[1..|lines| - 1])
    else None
  }

  /** Text without the separator is a single piece. */
  lemma {:induction false} SplitNoSep(s: string, sep: char)
    requires sep !in s
    ensures Split(s, sep) == [s]
    decreases |s|
  {
    if |s| > 0 {
      SplitNoSep(s[1..], sep);
      assert [s[0]] + s[1..] == s;
    }
  }

  /** A separator-free piece followed by the separator splits off whole. */
  lemma {:induction false} SplitCons(a: string, sep: char, b: string)
    requires sep !in a
    ensures Split(a + [sep] + b, sep) == [a] + Split(b, sep)
    decreases |a|
  {
    var s := a + [sep] + b;
    if |a| == 0 {
      assert s[0] == sep && s[1..] == b;
    } else {
      assert s[0] == a[0];
      assert s[1..] == a[1..] + [sep] + b;
      SplitCons(a[1..], sep, b);
      assert [a[0]] + a[1..] == a;
    }
  }

  /** The fields of a clean record are exactly what its line splits into. */
  lemma CsvLineFields(r: FlatRecord)
    requires CleanRecord(r)
    ensures Split(CsvLine(r), ',') == [r.deviceName, r.radio, r.ssid, r.bssid]
    ensures ParseLine(CsvLine(r)) == Some(r)
  {
    assert CsvLine(r) == r.deviceName + [','] + (r.radio + [','] + (r.ssid + [','] + r.bssid));
    SplitCons(r.deviceName, ',', r.radio + [','] + (r.ssid + [','] + r.bssid));
    SplitCons(r.radio, ',', r.ssid + [','] + r.bssid);
    SplitCons(r.ssid, ',', r.bssid);
    SplitNoSep(r.bssid, ',');
  }

  /** The lines of the body of clean records: one per record, in order,
      then the empty piece after the final newline. */
  lemma {:induction false} CsvBodyLines(records: seq<FlatRecord>)
    requires forall r :: r in records ==> CleanRecord(r)
    ensures Split(CsvBody(records), '\n') == seq(|records|, i requires 0 <= i < |records| => CsvLine(records[i])) + [""]
    decreases |records|
  {
    if |records| == 0 {
      assert CsvBody(records) == "";
    } else {
      var r := records[0];
      assert r in records;
      assert '\n' !in CsvLine(r);
      assert forall x :: x in records[1..] ==> x in records;
      CsvBodyLines(records[1..]);
      assert CsvBody(records) == CsvLine(r) + ['\n'] + CsvBody(records[1..]);
      SplitCons(CsvLine(r), '\n', CsvBody(records[1..]));
    }
  }

  /** Parsing the record lines of clean records gives the records back. */
  lemma {:induction false} ParseLinesOfRecords(records: seq<FlatRecord>)
    requires forall r :: r in records ==> CleanRecord(r)
    ensures ParseLines(seq(|records|, i requires 0 <= i < |records| => CsvLine(records[i]))) == Some(records)
    decreases |records|
  {
    var lines := seq(|records|, i requires 0 <= i < |records| => CsvLine(records[i]));
    if |records| > 0 {
      assert records[0] in records;
      CsvLineFields(records[0]);
      assert forall x :: x in records[1..] ==> x in records;
      ParseLinesOfRecords(records[1..]);
      assert lines[1..] == seq(|records| - 1, i requires 0 <= i < |records| - 1 => CsvLine(records[1..][i]));
      assert [records[0]] + records[1..] == records;
    }
  }

  /** The file is the header line, then one line per record in order, and
      nothing after the last newline; when no field holds a comma or a
      newline, reading it back yields exactly the records written. */
  lemma CsvRoundTrip(records: seq<FlatRecord>)
    requires forall r :: r in records ==> CleanRecord(r)
    ensures Split(CsvText(records), '\n') ==
      [Header] + seq(|records|, i requires 0 <= i < |records| => CsvLine(records[i])) + [""]
    ensures ParseCsv(CsvText(records)) == Some(records)
  {
    var lines := seq(|records|, i requires 0 <= i < |records| => CsvLine(records[i]));
    CsvBodyLines(records);
    assert CsvText(records) == Header + ['\n'] + CsvBody(records);
    SplitCons(Header, '\n', CsvBody(records));
    var all := Split(CsvText(records), '\n');
    assert all[1..|all| - 1] == lines;
    ParseLinesOfRecords(records);
  }

  /** Without quoting, a comma inside a field is indistinguishable from a
      field boundary: two different records are written as the same line. */
  lemma UnquotedCommaIsAmbiguous()
    ensures var a := FlatRecord("AP,1", "wifi0", "Guest", "Unknown");
            var b := FlatRecord("AP", "1,wifi0", "Guest", "Unknown");
      a != b && CsvLine(a) == CsvLine(b)
  {
  }
}

=== FILE: devices.dfy ===
/** One page of the device listing (`__collectDevicesBatch`,
    app/xiq_api.py:150-163) and the per-page views built from it
    (app/xiq_api.py:210-212): the AP filter, the id-to-hostname mapping and
    the list of ids handed to the radio-information query. */
module Devices {
  import opened Prelude
  import opened Http

  /** A device entry of `GET /devices`. `deviceFunction` is `None` when the
      entry has no `device_function` field (or it is null). */
  datatype Device = Device(id: int, hostname: string, deviceFunction: Option<string>)

  /** `GET /devices?page=&limit=[&deviceTypes=SIMULATED]` */
  datatype DeviceRequest = DeviceRequest(page: int, limit: int, simulatedOnly: bool)

  /** The parsed body of a device page. */
  datatype DevicePage = DevicePage(totalPages: int, data: seq<Device>)

  /** The device endpoint, as a function of the request. */
  type DeviceServer = DeviceRequest -> Transport<DevicePage>

  /** What one device page contributes: the page count it reports and its APs. */
  datatype DeviceBatch = DeviceBatch(pageCount: int, aps: seq<Device>)

  predicate IsAp(d: Device) {
    d.deviceFunction == Some("AP")
  }

  /** The AP filter (app/xiq_api.py:160-162), in the devices' order. */
  function FilterAps(ds: seq<Device>): seq<Device>
    decreases |ds|
  {
    if |ds| == 0 then []
    else (if IsAp(ds[0]) then [ds[0]] else []) + FilterAps(ds[1..])
  }

  /** The filter keeps exactly the devices whose function is "AP": nothing
      else is added and no AP is dropped. */
  lemma {:induction false} FilterApsMembers(ds: seq<Device>)
    ensures forall d :: d in FilterAps(ds) <==> d in ds && IsAp(d)
    ensures |FilterAps(ds)| <= |ds|
    decreases |ds|
  {
    if |ds| > 0 {
      FilterApsMembers(ds[1..]);
      assert forall d :: d in ds <==> d == ds[0] || d in ds[1..] by {
        assert ds == [ds[0]] + ds[1..];
      }
    }
  }

  /** Filtering a concatenation filters each part: order is preserved and
      nothing is added or dropped across the boundary. */
  lemma {:induction false} FilterApsAppend(a: seq<Device>, b: seq<Device>)
    ensures FilterAps(a + b) == FilterAps(a) + FilterAps(b)
    decreases |a|
  {
    if |a| > 0 {
      assert (a + b)[0] == a[0];
      assert (a + b)[1..] == a[1..] + b;
      FilterApsAppend(a[1..], b);
      assert FilterAps(a + b) == (if IsAp(a[0]) then [a[0]] else []) + (FilterAps(a[1..]) + FilterAps(b));
    } else {
      assert a + b == b;
    }
  }

  /** A list of APs passes the filter unchanged; in particular filtering
      twice is filtering once. */
  lemma {:induction false} FilterApsKeepsAps(ds: seq<Device>)
    requires forall d :: d in ds ==> IsAp(d)
    ensures FilterAps(ds) == ds
    decreases |ds|
  {
    if |ds| > 0 {
      FilterApsKeepsAps(ds[1..]);
    }
  }

  lemma FilterApsIdempotent(ds: seq<Device>)
    ensures FilterAps(FilterAps(ds)) == FilterAps(ds)
  {
    FilterApsMembers(ds);
    FilterApsKeepsAps(FilterAps(ds));
  }

  /** A list without APs is filtered to nothing. */
  lemma {:induction false} FilterApsDropsNonAps(ds: seq<Device>)
    requires forall d :: d in ds ==> !IsAp(d)
    ensures FilterAps(ds) == []
    decreases |ds|
  {
    if |ds| > 0 {
      FilterApsDropsNonAps(ds[1..]);
    }
  }

  /** One device page: the page count it reports and its APs, or the
      call's failure. */
  function CollectDevicesBatch(server: DeviceServer, page: int, sim: bool): (r: Result<DeviceBatch>)
    ensures r.Failure? <==> ApiCall(server(DeviceRequest(page, PageSize, sim))).Failure?
    ensures r.Failure? ==> r.error == ApiCall(server(DeviceRequest(page, PageSize, sim))).error
    ensures r.Success? ==>
      var body := ApiCall(server(DeviceRequest(page, PageSize, sim))).value;
      && r.value.pageCount == body.totalPages
      && r.value.aps == FilterAps(body.data)
      && (forall d :: d in r.value.aps <==> d in body.data && IsAp(d))
  {
    match ApiCall(server(DeviceRequest(page, PageSize, sim)))
    case Failure(e) => Failure(e)
    case Success(body) =>
      FilterApsMembers(body.data);
      Success(DeviceBatch(body.totalPages, FilterAps(body.data)))
  }

  /** The ids of a list of devices, in order. */
  function IdsOf(ds: seq<Device>): seq<int> {
    seq(|ds|, i requires 0 <= i < |ds| => ds[i].id)
  }

  /** `{d["id"]: d["hostname"] for d in device_list}`. */
  function HostNames(aps: seq<Device>): map<int, string>
    decreases |aps|
  {
    if |aps| == 0 then map[]
    else
      var last := aps[|aps| - 1];
      HostNames(aps[..|aps| - 1])[last.id := last.hostname]
  }

  /** The mapping has an entry for exactly the ids on the page. */
  lemma {:induction false} HostNamesKeys(aps: seq<Device>)
    ensures forall id :: id in HostNames(aps) <==> id in IdsOf(aps)
    decreases |aps|
  {
    if |aps| > 0 {
      var init := aps[..|aps| - 1];
      HostNamesKeys(init);
      assert IdsOf(aps) == IdsOf(init) + [aps[|aps| - 1].id];
    }
  }

  /** When an id occurs more than once, the hostname of its last entry
      wins. */
  lemma {:induction false} HostNamesLastWins(aps: seq<Device>, i: nat)
    requires i < |aps|
    requires forall j :: i < j < |aps| ==> aps[j].id != aps[i].id
    ensures aps[i].id in HostNames(aps) && HostNames(aps)[aps[i].id] == aps[i].hostname
    decreases |aps|
  {
    if i < |aps| - 1 {
      var init := aps[..|aps| - 1];
      HostNamesLastWins(init, i);
    }
  }

  /** `list(device_mapping.keys())`: every AP id once, in order of first
      occurrence. */
  function ApIds(aps: seq<Device>): (r: seq<int>)
    ensures Distinct(r)
    ensures forall id :: id in r <==> id in IdsOf(aps)
  {
    Dedup(IdsOf(aps))
  }

  /** `list(device_mapping.keys())` keeps insertion order: on a page whose
      ids are all different, the ids are the page's own, in page order. */
  lemma ApIdsInOrder(aps: seq<Device>)
    requires Distinct(IdsOf(aps))
    ensures ApIds(aps) == IdsOf(aps)
  {
    DedupOfDistinct(IdsOf(aps));
  }
}

=== FILE: groups.dfy ===
/** The remote device groups ("CCGs") and the membership comparison used by
    the reconciliation (`checkDeviceList`, XIQ_SSID_CCGs.py:64-65). */
module Groups {

  /** A group entry of `GET /ccgs`. */
  datatype Group = Group(id: int, name: string, description: string, deviceIds: seq<int>)

  /** The members of an id list as a set: order and repeats forgotten. */
  function Members(ids: seq<int>): set<int> {
    set x | x in ids
  }

  /** Every id listed in `a` is listed in `b`. */
  function Covers(a: seq<int>, b: seq<int>): (r: bool)
    ensures r <==> forall x :: x in a ==> x in b
  {
    if |a| == 0 then true
    else
      assert forall x :: x in a <==> x == a[0] || x in a[1..] by {
        assert a == [a[0]] + a[1..];
      }
      a[0] in b && Covers(a[1..], b)
  }

  /** `checkDeviceList`: the two id lists hold the same ids, whatever their
      order and however often each is repeated. */
  function SameMembers(a: seq<int>, b: seq<int>): (r: bool)
    ensures r <==> Members(a) == Members(b)
  {
    assert Members(a) == Members(b) <==> (forall x :: x in a <==> x in b) by {
      if Members(a) == Members(b) {
        forall x ensures x in a <==> x in b {
          assert x in a <==> x in Members(a);
          assert x in b <==> x in Members(b);
        }
      }
      if forall x :: x in a <==> x in b {
        assert forall x :: x in Members(a) <==> x in Members(b);
      }
    }
    Covers(a, b) && Covers(b, a)
  }

  /** Reordering or repeating ids never changes the verdict. */
  lemma SameMembersIgnoresArrangement(a: seq<int>, a': seq<int>, b: seq<int>)
    requires Members(a) == Members(a')
    ensures SameMembers(a, b) == SameMembers(a', b)
  {
  }

  /** Any difference in either direction is detected. */
  lemma SameMembersDetectsDifference(a: seq<int>, b: seq<int>, x: int)
    requires (x in a && x !in b) || (x in b && x !in a)
    ensures !SameMembers(a, b)
  {
    assert (x in Members(a)) != (x in Members(b));
  }
}

=== FILE: http.dfy ===
/** The API client's request/response plumbing (app/xiq_api.py:20-118):
    every call either yields the parsed body or raises the one failure kind,
    APICallFailedException. The transport itself is left out: a call's
    outcome is an abstract `Transport` value supplied by the caller, and
    JSON decoding is a "parses / does not parse" flag (`body` is `None`
    when the body is not valid JSON). */
module Http {
  import opened Prelude

  /** The page size the client is configured with. */
  const PageSize: int := 50

  /** What `requests` handed back: possibly nothing at all. */
  datatype RawResponse<T> = NoResponse | Response(status: int, body: Option<T>)

  /** The outcome of one HTTP exchange as the client sees it: either the
      `requests` call raised `HTTPError`, or it returned a raw response. */
  datatype Transport<T> = HttpErrorRaised | Returned(raw: RawResponse<T>)

  /** The reasons carried by the single failure kind. */
  datatype ApiError =
    | HttpError               // the transport raised HTTPError
    | NotReceived             // "No response received from XIQ!"
    | BadStatus(code: int)    // "Error - HTTP Status Code: <code>"
    | NotJson                 // "Unable to parse the data from json ..."
    | NoAccessToken           // a token-bearing response lacked access_token

  datatype Result<+T> = Success(value: T) | Failure(error: ApiError)

  /** Statuses the client accepts as success. */
  predicate IsAccepted(status: int) {
    status == 200 || status == 201
  }

  /** Response validation (`__checkResponse`): a response passes only when
      it is present, its status is 200 or 201, and its body parses; it then
      yields the parsed body. The status is examined first: a rejected status
      is reported as such whatever the body, a body parsing to a JSON scalar
      aside. The source does parse that body, but only to log it. */
  function CheckResponse<T>(raw: RawResponse<T>): (r: Result<T>)
    ensures r.Success? <==> raw.Response? && IsAccepted(raw.status) && raw.body.Some?
    ensures r.Success? ==> r.value == raw.body.value
    ensures r.Failure? && raw.Response? && !IsAccepted(raw.status) ==> r.error == BadStatus(raw.status)
    ensures r.Failure? && raw.Response? && IsAccepted(raw.status) ==> r.error == NotJson
    ensures raw.NoResponse? ==> r == Failure(NotReceived)
  {
    match raw
    case NoResponse => Failure(NotReceived)
    case Response(status, body) =>
      if status != 200 && status != 201 then Failure(BadStatus(status))
      else
        match body
        case None => Failure(NotJson)
        case Some(data) => Success(data)
  }

  /** One API call (`__get_api_call`, `__put_api_call`, `__post_api_call`):
      an `HTTPError` from the transport becomes the failure kind, anything
      returned goes through `CheckResponse`. Stated on the raw exchange: the
      call yields the body exactly when a response came back with status
      200 or 201 and a body that parses; a failure is reported as an
      `HTTPError` exactly when the transport raised one, and a plain call
      never reports a missing access token. */
  function ApiCall<T>(t: Transport<T>): (r: Result<T>)
    ensures r.Success? <==> t.Returned? && t.raw.Response? && IsAccepted(t.raw.status) && t.raw.body.Some?
    ensures r.Success? ==> r.value == t.raw.body.value
    ensures r.Failure? ==> (r.error == HttpError <==> t.HttpErrorRaised?) && !r.error.NoAccessToken?
  {
    match t
    case HttpErrorRaised => Failure(HttpError)
    case Returned(raw) => CheckResponse(raw)
  }

  /** A rejected status fails the call, with a failure that is the same
      whatever the body: the body is parsed only for the log message. */
  lemma RejectedStatusIgnoresBody<T>(status: int, a: Option<T>, b: Option<T>)
    requires !IsAccepted(status)
    ensures ApiCall(Returned(Response(status, a))) == ApiCall(Returned(Response(status, b)))
    ensures ApiCall(Returned(Response(status, a))).Failure?
  {
  }
}

=== FILE: prelude.dfy ===
/** Small generic vocabulary shared by the rest of the model: an optional
    value, duplicate-freedom, "keep first occurrences" and "first index of". */
module Prelude {

  datatype Option<+T> = None | Some(value: T) {
    function GetOr(default: T): T {
      match this
      case Some(v) => v
      case None => default
    }
  }

  /** No element occurs twice. */
  ghost predicate Distinct<T>(s: seq<T>) {
    forall i, j :: 0 <= i < j < |s| ==> s[i] != s[j]
  }

  /** A new element keeps a list duplicate-free. */
  lemma DistinctSnoc<T>(s: seq<T>, x: T)
    requires Distinct(s) && x !in s
    ensures Distinct(s + [x])
  {
    forall i, j | 0 <= i < j < |s| + 1 ensures (s + [x])[i] != (s + [x])[j] {
      if j == |s| {
        assert s[i] in s;
      }
    }
  }

  /** The elements of `s` in order of first occurrence, each exactly once:
      an element is kept iff it does not occur earlier in `s`. This is the
      behaviour of appending to a Python list guarded by `x not in list`,
      and of `list(dict.keys())` for a dict built by assignment. */
  function Dedup<T(==,!new)>(s: seq<T>): (r: seq<T>)
    ensures Distinct(r)
    ensures forall x :: x in r <==> x in s
    ensures |r| <= |s|
    decreases |s|
  {
    if |s| == 0 then []
    else
      var init := s[..|s| - 1];
      var last := s[|s| - 1];
      var d := Dedup(init);
      if last in init then d else d + [last]
  }

  /** Appending one element extends the deduplicated list by that element
      exactly when it is new. */
  lemma DedupSnoc<T(!new)>(s: seq<T>, x: T)
    ensures Dedup(s + [x]) == if x in s then Dedup(s) else Dedup(s) + [x]
  {
    assert (s + [x])[..|s|] == s;
  }

  /** A list without duplicates is its own deduplication. */
  lemma {:induction false} DedupOfDistinct<T(!new)>(s: seq<T>)
    requires Distinct(s)
    ensures Dedup(s) == s
    decreases |s|
  {
    if |s| > 0 {
      var init := s[..|s| - 1];
      assert Distinct(init);
      DedupOfDistinct(init);
      assert s[|s| - 1] !in init by {
        forall i | 0 <= i < |init|
          ensures init[i] != s[|s| - 1]
        {
          assert init[i] == s[i];
        }
      }
      assert init + [s[|s| - 1]] == s;
    }
  }

  /** The index of the first occurrence of `x` in `s`, if any. */
  function IndexOf<T(==)>(s: seq<T>, x: T): (r: Option<nat>)
    ensures r.None? <==> x !in s
    ensures r.Some? ==> r.value < |s| && s[r.value] == x
    ensures r.Some? ==> forall j :: 0 <= j < r.value ==> s[j] != x
  {
    if |s| == 0 then None
    else if s[0] == x then Some(0)
    else
      match IndexOf(s[1..], x)
      case None => None
      case Some(i) => Some(i + 1)
  }

  /** Looking up in an extended list finds the old first occurrence, else
      the new last element. */
  lemma IndexOfSnoc<T>(s: seq<T>, y: T, x: T)
    ensures IndexOf(s + [y], x) == if x in s then IndexOf(s, x) else if x == y then Some(|s|) else None
  {
    if x in s {
      var i := IndexOf(s, x).value;
      assert (s + [y])[i] == x;
    } else if x == y {
      assert (s + [y])[|s|] == x;
    }
  }
}

=== FILE: prompt.dfy ===
/** `yesNoLoop` (XIQ_SSID_CCGs.py:36-49): the question is asked again until
    the lower-cased answer is one of "y"/"yes", "n"/"no" or "q"/"quit". Yes
    and no are returned as "y" and "n"; quit ends the script with status 0
    through `exitOnEnter`. The answers typed are a sequence given in
    advance; running out of them stands for the end of input. */
module Prompt {

  datatype Answer = Yes | No | QuitAnswer | Unrecognised

  /** Lower-casing of one character, for the ASCII letters. */
  function LowerChar(c: char): char {
    if 'A' <= c <= 'Z' then (c as int + 32) as char else c
  }

  function UpperChar(c: char): char {
    if 'a' <= c <= 'z' then (c as int - 32) as char else c
  }

  /** `str.lower()` on ASCII text. */
  function Lower(s: string): string {
    seq(|s|, i requires 0 <= i < |s| => LowerChar(s[i]))
  }

  /** The branch chain of the loop body, on `input(...).lower()`. */
  function Classify(response: string): Answer {
    var r := Lower(response);
    if r == "n" || r == "no" then No
    else if r == "y" || r == "yes" then Yes
    else if r == "q" || r == "quit" then QuitAnswer
    else Unrecognised
  }

  /** `s` spells the lower-case `word` with each letter in either case. */
  predicate Spells(s: string, word: string) {
    |s| == |word| && forall i :: 0 <= i < |s| ==> s[i] == word[i] || s[i] == UpperChar(word[i])
  }

  predicate LowerWord(word: string) {
    forall i :: 0 <= i < |word| ==> 'a' <= word[i] <= 'z'
  }

  lemma LowerToWord(s: string, word: string)
    requires LowerWord(word)
    ensures Lower(s) == word <==> Spells(s, word)
  {
    if Spells(s, word) {
      assert forall i :: 0 <= i < |s| ==> Lower(s)[i] == word[i];
    }
    if Lower(s) == word {
      forall i | 0 <= i < |s| ensures s[i] == word[i] || s[i] == UpperChar(word[i]) {
        assert LowerChar(s[i]) == word[i];
      }
    }
  }

  /** The accepted answers are exactly the case variants of the six words:
      "Y", "yEs", "NO", "Quit" and so on are recognised, anything else
      (including surrounding spaces) is asked again. */
  lemma ClassifySpellings(s: string)
    ensures Classify(s) == Yes <==> Spells(s, "y") || Spells(s, "yes")
    ensures Classify(s) == No <==> Spells(s, "n") || Spells(s, "no")
    ensures Classify(s) == QuitAnswer <==> Spells(s, "q") || Spells(s, "quit")
    ensures Classify(s) == Unrecognised <==>
      !(Spells(s, "y") || Spells(s, "yes") || Spells(s, "n") || Spells(s, "no") || Spells(s, "q") || Spells(s, "quit"))
  {
    LowerToWord(s, "y");
    LowerToWord(s, "yes");
    LowerToWord(s, "n");
    LowerToWord(s, "no");
    LowerToWord(s, "q");
    LowerToWord(s, "quit");
  }

  /** How the loop ended. */
  datatype Reply = Replied(response: string) | QuitScript(exitStatus: int) | InputExhausted

  /** The loop over the answers typed, in order: the first recognised
      answer decides, every answer before it is asked again, and nothing
      after it is read. */
  method YesNoLoop(responses: seq<string>) returns (reply: Reply, asked: nat)
    ensures asked <= |responses|
    ensures forall j :: 0 <= j < asked - 1 ==> Classify(responses[j]) == Unrecognised
    ensures reply.InputExhausted? <==> forall j :: 0 <= j < |responses| ==> Classify(responses[j]) == Unrecognised
    ensures reply.InputExhausted? ==> asked == |responses|
    ensures !reply.InputExhausted? ==> asked >= 1 && Classify(responses[asked - 1]) != Unrecognised
    ensures reply.Replied? ==> reply.response == (if Classify(responses[asked - 1]) == Yes then "y" else "n")
    ensures reply.QuitScript? <==> !reply.InputExhausted? && Classify(responses[asked - 1]) == QuitAnswer
    ensures reply.QuitScript? ==> reply.exitStatus == 0
  {
    asked := 0;
    while asked < |responses|
      invariant asked <= |responses|
      invariant forall j :: 0 <= j < asked ==> Classify(responses[j]) == Unrecognised
    {
      var answer := Classify(responses[asked]);
      asked := asked + 1;
      match answer
      case No => reply := Replied("n"); return;
      case Yes => reply := Replied("y"); return;
      case QuitAnswer => reply := QuitScript(0); return;
      case Unrecognised =>
    }
    reply := InputExhausted;
  }
}

=== FILE: reconcile.dfy ===
/** The reconciliation of the SSID map against the existing device groups
    (XIQ_SSID_CCGs.py:120-152), together with the two mutating API calls it
    makes, `updateCCG` and `createCCG` (app/xiq_api.py:266-282), and the
    script's handling of their failure. For each SSID, in map order, the
    first group with the same name decides: none means a create, one with
    the same members means nothing to do, one with other members means a
    full-overwrite update. The first rejected call ends the run. */
module Reconcile {
  import opened Prelude
  import opened Http
  import opened Aggregation
  import opened Groups

  /** A mutating call: `PUT /ccgs/<id>` or `POST /ccgs`. */
  datatype Action =
    | Update(id: int, name: string, description: string, deviceIds: seq<int>)
    | Create(name: string, description: string, deviceIds: seq<int>)

  /** What one SSID calls for. */
  datatype Decision = InSync | Call(action: Action)

  /** The group endpoint for mutating calls; the returned body is unused. */
  type GroupServer = Action -> Transport<Group>

  /** Exit statuses of the script (XIQ_SSID_CCGs.py:29-34), and the status
      the Python interpreter ends with when an exception escapes the
      script. */
  const LoginFailedCode: int := 1
  const UpdateFailedCode: int := 5
  const CreateFailedCode: int := 6
  const UncaughtExceptionStatus: int := 1

  /** The description a newly created group gets. */
  function CreateDescription(ssid: string): string {
    "CCG for SSID " + ssid
  }

  function GroupNames(groups: seq<Group>): seq<string> {
    seq(|groups|, i requires 0 <= i < |groups| => groups[i].name)
  }

  /** `i` is the position of the first group named `name`. */
  ghost predicate IsFirstMatch(groups: seq<Group>, name: string, i: int) {
    && 0 <= i < |groups|
    && groups[i].name == name
    && forall j :: 0 <= j < i ==> groups[j].name != name
  }

  /** The inner `for ccg in ccg_list ... break` (XIQ_SSID_CCGs.py:123-141):
      the first group in list order whose name equals `name`, if any. */
  function FirstMatch(groups: seq<Group>, name: string): (r: Option<nat>)
    ensures r.Some? <==> exists i :: IsFirstMatch(groups, name, i)
    ensures r.Some? ==> IsFirstMatch(groups, name, r.value)
    ensures r.None? <==> forall g :: g in groups ==> g.name != name
  {
    var names := GroupNames(groups);
    var r := IndexOf(names, name);
    assert forall i :: 0 <= i < |groups| ==> names[i] == groups[i].name;
    if r.None? then
      assert forall g :: g in groups ==> g.name != name by {
        forall g | g in groups ensures g.name != name {
          var i :| 0 <= i < |groups| && groups[i] == g;
          assert names[i] !=  name;
        }
      }
      r
    else
      assert IsFirstMatch(groups, name, r.value);
      assert groups[r.value] in groups;
      r
  }

  /** The first match is unique: any position that is a first match is the
      one `FirstMatch` finds. */
  lemma FirstMatchUnique(groups: seq<Group>, name: string, i: int)
    requires IsFirstMatch(groups, name, i)
    ensures FirstMatch(groups, name) == Some(i)
  {
    assert groups[i] in groups;
  }

  /** What one SSID of the map calls for (XIQ_SSID_CCGs.py:121-146). */
  function Decide(entry: SsidEntry, groups: seq<Group>): Decision {
    match FirstMatch(groups, entry.ssid)
    case None => Call(Create(entry.ssid, CreateDescription(entry.ssid), entry.deviceIds))
    case Some(i) =>
      var g := groups[i];
      if SameMembers(g.deviceIds, entry.deviceIds) then InSync
      else Call(Update(g.id, entry.ssid, g.description, entry.deviceIds))
  }

  /** Exactly one of three outcomes per SSID. With no group of that name, a
      create with the SSID as name, "CCG for SSID <name>" as description
      and the full device list. With a first match holding the same ids as
      a set, nothing. Otherwise an update of the first match that keeps its
      id and description and overwrites name and members with the SSID and
      the full device list. */
  lemma DecideSpec(entry: SsidEntry, groups: seq<Group>)
    ensures var r := Decide(entry, groups);
      (r.Call? && r.action.Create?) <==> forall g :: g in groups ==> g.name != entry.ssid
    ensures var r := Decide(entry, groups);
      r.Call? && r.action.Create? ==>
        r.action == Create(entry.ssid, "CCG for SSID " + entry.ssid, entry.deviceIds)
    ensures var r := Decide(entry, groups);
      forall i :: IsFirstMatch(groups, entry.ssid, i) ==>
        if Members(groups[i].deviceIds) == Members(entry.deviceIds) then r == InSync
        else r == Call(Update(groups[i].id, entry.ssid, groups[i].description, entry.deviceIds))
  {
    forall i | IsFirstMatch(groups, entry.ssid, i)
      ensures var r := Decide(entry, groups);
        if Members(groups[i].deviceIds) == Members(entry.deviceIds) then r == InSync
        else r == Call(Update(groups[i].id, entry.ssid, groups[i].description, entry.deviceIds))
    {
      FirstMatchUnique(groups, entry.ssid, i);
    }
  }

  /** Groups after the first match are never looked at: appending groups
      changes nothing once a match exists, and neither does dropping the
      groups after it. */
  lemma DecideIgnoresLaterGroups(entry: SsidEntry, groups: seq<Group>, later: seq<Group>, i: nat)
    requires IsFirstMatch(groups, entry.ssid, i)
    ensures Decide(entry, groups + later) == Decide(entry, groups)
    ensures Decide(entry, groups[..i + 1]) == Decide(entry, groups)
  {
    FirstMatchUnique(groups, entry.ssid, i);
    FirstMatchUnique(groups + later, entry.ssid, i);
    FirstMatchUnique(groups[..i + 1], entry.ssid, i);
  }

  /** The group a call leaves behind, at the matched position for an update
      and at the end for a create (with the id the server assigns). Once it
      is in place the same SSID calls for nothing. */
  lemma DecideSettles(entry: SsidEntry, groups: seq<Group>, newId: int)
    ensures var d := Decide(entry, groups);
      d.Call? && d.action.Create? ==>
        Decide(entry, groups + [Group(newId, d.action.name, d.action.description, d.action.deviceIds)]) == InSync
    ensures var d := Decide(entry, groups);
      d.Call? && d.action.Update? ==>
        forall i :: IsFirstMatch(groups, entry.ssid, i) ==>
          Decide(entry, groups[i := Group(d.action.id, d.action.name, d.action.description, d.action.deviceIds)]) == InSync
  {
    var d := Decide(entry, groups);
    if d.Call? && d.action.Create? {
      var g := Group(newId, d.action.name, d.action.description, d.action.deviceIds);
      assert IsFirstMatch(groups + [g], entry.ssid, |groups|) by {
        forall j | 0 <= j < |groups| ensures (groups + [g])[j].name != entry.ssid {
          assert groups[j] in groups;
        }
      }
      FirstMatchUnique(groups + [g], entry.ssid, |groups|);
    } else if d.Call? && d.action.Update? {
      forall i | IsFirstMatch(groups, entry.ssid, i)
        ensures Decide(entry, groups[i := Group(d.action.id, d.action.name, d.action.description, d.action.deviceIds)]) == InSync
      {
        var g := Group(d.action.id, d.action.name, d.action.description, d.action.deviceIds);
        FirstMatchUnique(groups, entry.ssid, i);
        assert IsFirstMatch(groups[i := g], entry.ssid, i);
        FirstMatchUnique(groups[i := g], entry.ssid, i);
      }
    }
  }

  /** The call a decision makes, if any. */
  function CallsOf(d: Decision): seq<Action> {
    if d.Call? then [d.action] else []
  }

  /** Every call the reconciliation makes when each one succeeds: one call
      or none per SSID, in map order. */
  function PlannedCalls(m: SsidMap, groups: seq<Group>): seq<Action>
    decreases |m|
  {
    if |m| == 0 then []
    else PlannedCalls(m[..|m| - 1], groups) + CallsOf(Decide(m[|m| - 1], groups))
  }

  function ActionNames(calls: seq<Action>): seq<string> {
    seq(|calls|, i requires 0 <= i < |calls| => calls[i].name)
  }

  lemma ActionNamesAppend(p: seq<Action>, c: seq<Action>)
    ensures ActionNames(p + c) == ActionNames(p) + ActionNames(c)
  {
  }

  /** Every planned call names an SSID of the map, and an SSID gets a call
      exactly when its decision is not `InSync`. */
  lemma {:induction false} PlannedCallNames(m: SsidMap, groups: seq<Group>)
    ensures forall k :: k in ActionNames(PlannedCalls(m, groups)) <==>
      exists i :: 0 <= i < |m| && m[i].ssid == k && Decide(m[i], groups).Call?
    decreases |m|
  {
    if |m| > 0 {
      var init := m[..|m| - 1];
      var last := m[|m| - 1];
      PlannedCallNames(init, groups);
      var p := PlannedCalls(init, groups);
      var c := CallsOf(Decide(last, groups));
      ActionNamesAppend(p, c);
      forall k ensures k in ActionNames(PlannedCalls(m, groups)) <==>
        exists i :: 0 <= i < |m| && m[i].ssid == k && Decide(m[i], groups).Call?
      {
        if exists i :: 0 <= i < |m| && m[i].ssid == k && Decide(m[i], groups).Call? {
          var i :| 0 <= i < |m| && m[i].ssid == k && Decide(m[i], groups).Call?;
          if i < |init| {
            assert init[i] == m[i];
          } else {
            assert ActionNames(c)[0] == k;
          }
        }
        if k in ActionNames(p) {
          var i :| 0 <= i < |init| && init[i].ssid == k && Decide(init[i], groups).Call?;
          assert m[i] == init[i];
        }
      }
    }
  }

  /** At most one call per SSID: the map's keys are distinct, so the names
      of the planned calls are too. */
  lemma {:induction false} PlannedCallsDistinct(m: SsidMap, groups: seq<Group>)
    requires Distinct(Keys(m))
    ensures Distinct(ActionNames(PlannedCalls(m, groups)))
    decreases |m|
  {
    if |m| > 0 {
      var init := m[..|m| - 1];
      var last := m[|m| - 1];
      assert Keys(init) == Keys(m)[..|m| - 1];
      PlannedCallsDistinct(init, groups);
      PlannedCallNames(init, groups);
      var p := PlannedCalls(init, groups);
      var c := CallsOf(Decide(last, groups));
      ActionNamesAppend(p, c);
      if c != [] {
        forall i | 0 <= i < |init| ensures init[i].ssid != last.ssid {
          assert Keys(m)[i] == init[i].ssid;
          assert Keys(m)[|m| - 1] == last.ssid;
        }
        DistinctSnoc(ActionNames(p), last.ssid);
      }
    }
  }

  /** The calls planned for a leading part of the map are a prefix of the
      calls planned for the whole map. */
  lemma {:induction false} PlannedCallsPrefix(m: SsidMap, groups: seq<Group>, k: nat)
    requires k <= |m|
    ensures PlannedCalls(m[..k], groups) <= PlannedCalls(m, groups)
    decreases |m| - k
  {
    if k < |m| {
      var m' := m[..|m| - 1];
      assert m'[..k] == m[..k];
      PlannedCallsPrefix(m', groups, k);
    } else {
      assert m[..k] == m;
    }
  }

  // ---------------------------------------------------------------------
  // The two mutating calls and their failure

  /** What a failing `updateCCG`/`createCCG` raises. */
  datatype Raised =
    | ApiCallFailed(reason: ApiError)  // APICallFailedException
    | ConstructorTypeError             // TypeError from calling the exception class without its message

  /** The server accepts the call. */
  predicate Accepted(server: GroupServer, a: Action) {
    ApiCall(server(a)).Success?
  }

  /** `updateCCG`/`createCCG` as written (app/xiq_api.py:269-272 and
      278-281): on a failed call the handler executes `raise
      APICallFailedException` without arguments, so Python instantiates the
      class with no `message` — which its constructor requires — and the
      TypeError from that instantiation is what leaves the call. */
  function IssueAsWritten(server: GroupServer, a: Action): Option<Raised> {
    match ApiCall(server(a))
    case Success(_) => None
    case Failure(_) => Some(ConstructorTypeError)
  }

  /** The calls as evidently intended: a failure leaves as
      APICallFailedException carrying the reason. */
  function Issue(server: GroupServer, a: Action): Option<Raised> {
    match ApiCall(server(a))
    case Success(_) => None
    case Failure(e) => Some(ApiCallFailed(e))
  }

  /** The two halves raise on exactly the same calls: those whose transport
      raised `HTTPError` or returned no response, a rejected status or an
      unparsable body. As written, what leaves the call is never the
      APICallFailedException the script's handler waits for; corrected, it
      always is, carrying the call's reason. */
  lemma IssueHalves(server: GroupServer, a: Action)
    ensures Issue(server, a).None? <==>
      server(a).Returned? && server(a).raw.Response? && IsAccepted(server(a).raw.status) && server(a).raw.body.Some?
    ensures IssueAsWritten(server, a).Some? <==> Issue(server, a).Some?
    ensures IssueAsWritten(server, a).Some? ==> !IssueAsWritten(server, a).value.ApiCallFailed?
    ensures Issue(server, a).Some? ==> Issue(server, a).value == ApiCallFailed(ApiCall(server(a)).error)
  {
  }

  /** The exit code the script has been given for a failed call of this kind. */
  function FailureCode(a: Action): int {
    if a.Update? then UpdateFailedCode else CreateFailedCode
  }

  /** The handler around the call (XIQ_SSID_CCGs.py:131-136 and 145-150):
      only APICallFailedException is caught, leading to `exitOnEnter` with
      the call's code; anything else escapes the script. The status tells
      the causes apart: 5 only for a caught failed update, 6 only for a
      caught failed create, and the login-failure status 1 exactly when the
      exception escaped. */
  function ExitStatus(raised: Raised, a: Action): (status: int)
    ensures status == UpdateFailedCode <==> raised.ApiCallFailed? && a.Update?
    ensures status == CreateFailedCode <==> raised.ApiCallFailed? && a.Create?
    ensures status == LoginFailedCode <==> !raised.ApiCallFailed?
  {
    match raised
    case ApiCallFailed(_) => FailureCode(a)
    case ConstructorTypeError => UncaughtExceptionStatus
  }

  /** As written, every failed update or create escapes the handler meant
      for it: the script ends with the interpreter's status 1 — the code
      reserved for a failed login — and never with 5 or 6. The corrected
      calls end with 5 for an update and 6 for a create. */
  lemma FailedCallExitStatus(server: GroupServer, a: Action)
    requires !Accepted(server, a)
    ensures ExitStatus(IssueAsWritten(server, a).value, a) == LoginFailedCode
    ensures ExitStatus(IssueAsWritten(server, a).value, a) != FailureCode(a)
    ensures ExitStatus(Issue(server, a).value, a) == (if a.Update? then 5 else 6)
  {
  }

  /** A concrete instance: a server that answers every call with status 500.
      Updating a group ends the script with status 1 as written and with 5
      as intended. */
  lemma FailedUpdateExample()
    ensures var server: GroupServer := a => Returned(Response(500, None));
            var a := Update(7, "Guest", "Lobby", [1, 2]);
      && !Accepted(server, a)
      && ExitStatus(IssueAsWritten(server, a).value, a) == 1
      && ExitStatus(Issue(server, a).value, a) == 5
  {
  }

  // ---------------------------------------------------------------------
  // The loop

  /** How the reconciliation ended: every SSID handled, or stopped at the
      SSID whose call failed with the script's exit status. */
  datatype Ending = Completed | Aborted(ssid: string, exitStatus: int)

  /** The body of the loop for one SSID (XIQ_SSID_CCGs.py:121-152): scan
      the groups for the first one of the same name, then issue the call the
      SSID needs, if any. The calls made are exactly what `Decide` calls
      for, and a raised failure means the one call was rejected. */
  method HandleSsid(entry: SsidEntry, groups: seq<Group>, server: GroupServer)
    returns (calls: seq<Action>, raised: Option<Raised>)
    ensures calls == CallsOf(Decide(entry, groups))
    ensures raised.None? <==> forall a :: a in calls ==> Accepted(server, a)
    ensures raised.Some? ==> |calls| == 1 && raised.value == ApiCallFailed(ApiCall(server(calls[0])).error)
  {
    calls := [];
    raised := None;
    var found := false;
    var j := 0;
    while j < |groups|
      invariant 0 <= j <= |groups|
      invariant !found
      invariant forall t :: 0 <= t < j ==> groups[t].name != entry.ssid
    {
      if groups[j].name == entry.ssid {
        found := true;
        FirstMatchUnique(groups, entry.ssid, j);
        if !SameMembers(groups[j].deviceIds, entry.deviceIds) {
          var a := Update(groups[j].id, entry.ssid, groups[j].description, entry.deviceIds);
          calls := [a];
          raised := Issue(server, a);
          assert raised.None? <==> Accepted(server, a);
        }
        break;
      }
      j := j + 1;
    }
    if !found {
      assert forall g :: g in groups ==> g.name != entry.ssid by {
        forall g | g in groups ensures g.name != entry.ssid {
          var t :| 0 <= t < |groups| && groups[t] == g;
        }
      }
      var a := Create(entry.ssid, CreateDescription(entry.ssid), entry.deviceIds);
      calls := [a];
      raised := Issue(server, a);
      assert raised.None? <==> Accepted(server, a);
    }
  }

  /** A run stopped by a rejected call after the `k`-th SSID issued a prefix
      of the planned calls, and not every planned call is accepted. */
  lemma AbortedRun(m: SsidMap, groups: seq<Group>, server: GroupServer, k: nat, issued: seq<Action>)
    requires k < |m| && issued == PlannedCalls(m[..k + 1], groups)
    requires |issued| > 0 && !Accepted(server, issued[|issued| - 1])
    ensures issued <= PlannedCalls(m, groups)
    ensures !forall a :: a in PlannedCalls(m, groups) ==> Accepted(server, a)
  {
    PlannedCallsPrefix(m, groups, k + 1);
    assert PlannedCalls(m, groups)[|issued| - 1] == issued[|issued| - 1];
  }

  /** The loop of XIQ_SSID_CCGs.py:120-152, with the corrected calls: the
      calls it issues, in order, and how it ended. The calls issued are a
      prefix of the planned calls that stops at the first rejected one;
      nothing after an abort is attempted, and the run completes exactly
      when every planned call is accepted. */
  method ReconcileGroups(m: SsidMap, groups: seq<Group>, server: GroupServer)
    returns (issued: seq<Action>, ending: Ending)
    ensures issued <= PlannedCalls(m, groups)
    ensures ending.Completed? ==> issued == PlannedCalls(m, groups)
    ensures ending.Completed? <==> forall a :: a in PlannedCalls(m, groups) ==> Accepted(server, a)
    ensures forall i :: 0 <= i < |issued| - 1 ==> Accepted(server, issued[i])
    ensures ending.Aborted? ==>
      && |issued| > 0
      && !Accepted(server, issued[|issued| - 1])
      && ending.ssid == issued[|issued| - 1].name
      && ending.exitStatus == (if issued[|issued| - 1].Update? then 5 else 6)
      && exists k :: 0 <= k < |m| && m[k].ssid == ending.ssid && issued == PlannedCalls(m[..k + 1], groups)
  {
    issued := [];
    var k := 0;
    while k < |m|
      invariant 0 <= k <= |m|
      invariant issued == PlannedCalls(m[..k], groups)
      invariant forall a :: a in issued ==> Accepted(server, a)
    {
      assert m[..k + 1][..k] == m[..k];
      var calls, raised := HandleSsid(m[k], groups, server);
      issued := issued + calls;
      if raised.Some? {
        var a := calls[0];
        ending := Aborted(m[k].ssid, ExitStatus(raised.value, a));
        AbortedRun(m, groups, server, k, issued);
        return;
      }
      k := k + 1;
    }
    assert m[..|m|] == m;
    ending := Completed;
  }
}
